=== FILE: README.md ===
# Log viewer: tail scan, file watcher and WebSocket session registry

This project models the core of a small live log-tail server in Dafny and
proves properties of the model. Clients open a WebSocket for a configured
server and get that server's log file.

- **The backward tail scan** (`TailReader`). `readLastNLines(file, n)` gives the
  client the last `n` lines of the file first. It steps a cursor back 128 bytes
  at a time, clamped at 0. It scans each chunk from its end, counts `'\n'`
  bytes, and collects the bytes in reverse until it meets the n-th newline.
  `reverseArray` then swaps the collected bytes back into file order, in place.
- **The file watcher** (`FileWatching`). It runs one watching thread per
  file, and each thread runs a `FileChangeLoader`. A loader is a cursor that
  starts at the length the file had when it was opened. It only ever moves
  forward, returning at most `bufferSize` (1024) bytes per `read`. Each chunk
  read goes to the handler registered for the file at that moment.
- **The session registry of `WebSocketFrameHandler`** (`Sessions`, `Query`).
  - The registry maps each server to the set of channels watching it, and each
    channel to the messages sent on it, in the order they are written.
  - The handshake reads `serverId` and `number` from the query string, using
    `getQueryParam`, Java's `String.split` and `Integer.parseInt`. It sends the
    backlog in pieces of 1024 characters, makes sure the server's file is
    watched, adds the channel to the server's set, and marks the channel with
    the WebSocket attribute.
  - On disconnect, the channel leaves every set. A set that becomes empty
    loses its entry and its file's watcher.
  - The watcher's `Sender` fans each decoded chunk out to the server's
    channels.

The model follows the code, operation by operation:

- Loops become `while` loops with invariants, each proved against a function
  that says what it computes.
- Objects whose fields change become classes: `FileChangeLoader`,
  `FileWatcher` and `WebSocketFrameHandler`.
- The file system is a map from path to byte contents, passed in at the moment
  an operation looks at it.
- UTF-8 decoding is a function given by the caller.
- Each operation is one atomic step. The source's lock covers only the
  handshake and the disconnect. The fan-out on a watching thread and
  `FileWatcher.remove` run without it (see "## Left out").

The class invariant `WebSocketFrameHandler.Valid` ties the registry to the
watcher:

- A server has an entry only with a non-empty set of channels.
- A server's file is watched exactly when the server has an entry, with a
  `Sender` for that server. No other file is watched.
- Only watching channels have a last future.
- Every watching channel carries the attribute.

The constructor establishes this invariant. The handshake (`Handshake`, with
its parts `MarkChannel` and `Register`), `ChannelInactive` and one turn of a
watching thread (`Poll`) keep it. The inner steps (`SendMessage`,
`SendBacklog`, `CreateWatcher`, `LeaveAll`, `LeaveServer`, `SenderHandle`,
`HandleAll`) do not claim it. Their contracts say instead how each map
changes.

## Model

| member | source | states |
|---|---|---|
| TailReader.ReadLastNLines | src/main/java/lwsoft/club/log/reader/TailReader.java:13-42 | The do/while over backward chunks and the final reversal return exactly `TailOf(file, n)`. The result is empty for n == 0 or an empty file. It holds at most n - 1 newlines, and none for n <= 0. For n > 0 it is the last n lines when the length is at most 128 or a multiple of 128, or when the bytes from length mod 128 on hold at least n newlines. In the remaining case (longer than 128, not a multiple, c < n newlines from length mod 128 on) it is the last n - c lines of the first 128 bytes followed by everything from length mod 128 on. For negative n it is what follows the last newline of the last chunk. |
| TailReader.CollectBackward | src/main/java/lwsoft/club/log/reader/TailReader.java:20-37 | The do/while loop collects, in reverse order, exactly the bytes `TailOf(file, n)` names. |
| TailReader.ScanChunk | src/main/java/lwsoft/club/log/reader/TailReader.java:27-35 | The inner for-loop leaves the line count and the output that the backward scan of the chunk defines: the chunk's bytes after the stopping newline, appended in reverse. |
| TailReader.TailOfProperties | src/main/java/lwsoft/club/log/reader/TailReader.java:13-42 | The promises of readLastNLines, gathered: empty for n == 0 or an empty file, the newline bound, the last n lines in the aligned case and when enough newlines follow length mod 128, the rescanned shape otherwise, and the last line of the last chunk for negative n. |
| TailReader.ScanBackMeaning | src/main/java/lwsoft/club/log/reader/TailReader.java:27-35 | Scanning one chunk backward writes exactly the last max(n - lineCount, 1) lines of the chunk. It counts every newline it passes, the stopping one included. |
| TailReader.NoNewlineScan | src/main/java/lwsoft/club/log/reader/TailReader.java:27-35 | A chunk without newlines is written whole and leaves the line count unchanged, whatever the count so far. |
| TailReader.FewNewlinesScan | src/main/java/lwsoft/club/log/reader/TailReader.java:27-35 | A chunk holding fewer newlines than the n - lineCount still sought is written whole, and each of its newlines is counted. |
| TailReader.TailNewlineBound | src/main/java/lwsoft/club/log/reader/TailReader.java:27-37 | The n-th newline met is never written: the result holds at most n - 1 newlines, and none when n <= 0. |
| TailReader.CorrectedScanIsLastLines | src/main/java/lwsoft/club/log/reader/TailReader.java:22-37 | With each read stopped at the previous cursor, the scan from any position collects exactly the last n - lineCount lines of the file up to that position. |
| TailReader.TailOfCorrectedIsLastLines | src/main/java/lwsoft/club/log/reader/TailReader.java:13-42 | For n > 0, the corrected scan yields the bytes after the n-th newline from the end, or the whole file when it has fewer newlines. |
| TailReader.AlignedReadsAgree | src/main/java/lwsoft/club/log/reader/TailReader.java:22-37 | When the file fits in one chunk, or every cursor is a multiple of 128, the code's reads are exactly the corrected reads. |
| TailReader.TailIsLastLinesWhenAligned | src/main/java/lwsoft/club/log/reader/TailReader.java:13-42 | For n > 0 and a length that is at most 128 or a multiple of 128, readLastNLines yields the last n lines. |
| TailReader.UnalignedReadsAgree | src/main/java/lwsoft/club/log/reader/TailReader.java:22-37 | For a length that is not a multiple of 128, every cursor keeps the length's remainder. While the bytes from that remainder up to the cursor still hold the newlines sought, the scan stops before the clamped read, and the code's reads are exactly the corrected reads. |
| TailReader.TailIsLastLinesWhenEnoughNewlines | src/main/java/lwsoft/club/log/reader/TailReader.java:13-42 | For n > 0 and a length that is not a multiple of 128, when the bytes from length mod 128 on hold at least n newlines, readLastNLines yields the last n lines. |
| TailReader.NegativeCountKeepsLastLineOfChunk | src/main/java/lwsoft/club/log/reader/TailReader.java:30-37 | For negative n, the loop runs once. The result is what follows the last newline of the last chunk, or that whole chunk. |
| TailReader.LastLinesStartUnique | src/main/java/lwsoft/club/log/reader/TailReader.java:13-42 | "The last m lines" is well defined: at most one start position satisfies it. |
| TailReader.RescanFrom | src/main/java/lwsoft/club/log/reader/TailReader.java:22-37 | As written, while fewer than n newlines are met, every full chunk is written whole and the scan steps back to the cursor length mod 128. There the clamped read brings the first 128 bytes, and their last lines come first. |
| TailReader.RescannedTail | src/main/java/lwsoft/club/log/reader/TailReader.java:23-25 | As written, for a file longer than 128 bytes whose length is not a multiple of 128, with c < n newlines from length mod 128 on: the result is the last n - c lines of the first 128 bytes, then everything from length mod 128 on. The bytes from the later of the two starts up to byte 128 come back twice. |
| TailReader.RescanDuplicatesBytes | src/main/java/lwsoft/club/log/reader/TailReader.java:23-25 | As written, a newline-free file longer than 128 bytes whose length is not a multiple of 128 comes back as its first 128 bytes, then everything from length mod 128 on. That is longer than the file and is not its last lines. |
| TailReader.SampleLastTwoLines | src/test/java/lwsoft/club/log/reader/TailReaderTest.java:19-20 | The repository's test: the last two lines of "1\r\n2\r\n3\r\n4\r\n5\r\n6\r\n7" are "6\r\n7", and they are the last two lines in the sense above. |
| TailReader.ReverseArray | src/main/java/lwsoft/club/log/reader/TailReader.java:44-54 | The converging swaps leave the array holding the reverse of its old contents. |
| TailReader.ReverseAt | src/main/java/lwsoft/club/log/reader/TailReader.java:44-54 | Element k of the reverse is element length - 1 - k of the original. |
| TailReader.ReverseInvolution | src/main/java/lwsoft/club/log/reader/TailReader.java:44-54 | Reversing twice restores the original sequence. |
| FileWatching.FileChangeLoader.constructor | src/main/java/lwsoft/club/log/reader/FileWatcher.java:71-75 | The cursor starts at the current file length and nothing has been delivered, so bytes present before opening are never returned. |
| FileWatching.FileChangeLoader.Read | src/main/java/lwsoft/club/log/reader/FileWatcher.java:77-85 | With no byte at the cursor (end of file, past it after truncation, or a zero-size buffer), the read returns nothing and changes nothing. Otherwise it returns the next min(bufferSize, available) bytes of the file (1..bufferSize of them) and advances the cursor past them. The cursor never decreases, and what was delivered stays the file between the start and the cursor. |
| FileWatching.FileChangeLoader.ReadAvailable | src/main/java/lwsoft/club/log/reader/FileWatcher.java:45-52 | Reading until a read returns nothing yields chunks whose concatenation is everything from the cursor to the end of the file. Each chunk holds 1..bufferSize bytes, all but the last are full, and the cursor ends at the end of the file. With no byte available, the result is empty and the cursor stays. |
| FileWatching.FileChangeLoader.TracksAfterAppend | src/main/java/lwsoft/club/log/reader/FileWatcher.java:74-85 | Appending to the file keeps the delivered bytes equal to the file between the start and the cursor. |
| FileWatching.FileWatcher.constructor | src/main/java/lwsoft/club/log/reader/FileWatcher.java:17-18 | Both maps start empty and in step. |
| FileWatching.FileWatcher.Contains | src/main/java/lwsoft/club/log/reader/FileWatcher.java:35-37 | True exactly when the thread map has the file. In a valid watcher, this is also exactly when the file has a handler. |
| FileWatching.FileWatcher.AddListener | src/main/java/lwsoft/club/log/reader/FileWatcher.java:20-25 | A thread, with a fresh loader whose cursor starts at the file's current end (FileWatcher.java:71-75), is created only when none watches the file. An existing thread is kept. The handler is replaced in every case, and the file is then contained. |
| FileWatching.FileWatcher.Remove | src/main/java/lwsoft/club/log/reader/FileWatcher.java:27-33 | Both entries of the file are removed and other files' entries are unchanged. Removing a file that is not watched changes nothing, so a second remove is a no-op. |
| FileWatching.FileWatcher.PollOnce | src/main/java/lwsoft/club/log/reader/FileWatcher.java:43-53 | One turn of the watch loop drains the file's loader: the chunks read are everything appended since the last turn, chunked as ReadAvailable says. The handler is the one currently registered for the file, or none. |
| Query.SplitMeaning | src/main/java/lwsoft/club/log/reader/Main.java:265-266 | Java's split on one character: without the delimiter it gives [s]. Otherwise the pieces hold no delimiter, joined with it they form a prefix of s, only delimiters follow that prefix, and the last piece kept is not empty. |
| Query.JoinFields | src/main/java/lwsoft/club/log/reader/Main.java:265-266 | The fields between delimiters, joined back with the delimiter, give the string. |
| Query.SplitPair | src/main/java/lwsoft/club/log/reader/Main.java:265-267 | "name=value" with neither part holding the delimiter and a non-empty value splits into exactly [name, value]. |
| Query.SplitTriple | src/main/java/lwsoft/club/log/reader/Main.java:266-267 | Two delimiters and a non-empty last part give three pieces. |
| Query.FirstValue | src/main/java/lwsoft/club/log/reader/Main.java:265-271 | None exactly when no pair splits into the name and a value. Otherwise the result is the value of the first pair that does, every earlier pair being skipped. |
| Query.FirstValueIndex | src/main/java/lwsoft/club/log/reader/Main.java:266-270 | The found value comes from a pair that splits into exactly [name, value]. |
| Query.GetQueryParam | src/main/java/lwsoft/club/log/reader/Main.java:258-272 | No query gives null (None). Otherwise the result is the first matching value among the '&'-separated pairs. |
| Query.PairShape | src/main/java/lwsoft/club/log/reader/Main.java:266-269 | A pair that yields a value is the name, '=', the value, and nothing after but further '='. The value is non-empty and neither part holds '='. |
| Query.FoundValueShape | src/main/java/lwsoft/club/log/reader/Main.java:258-272 | A value getQueryParam finds is never empty and holds neither '=' nor '&'. |
| Query.ExtraEqualsSkipped | src/main/java/lwsoft/club/log/reader/Main.java:266-270 | In "a=b=c&a=d", the pair "a=b=c" is skipped and "a" is "d". |
| Query.ExtraEqualsNamesNothing | src/main/java/lwsoft/club/log/reader/Main.java:266-271 | "a=b=c" names no parameter; on its own, "a" is missing. |
| Query.ParseInt | src/main/java/lwsoft/club/log/reader/Main.java:194 | Integer.parseInt succeeds only on an optional sign followed by digits, with a value that fits 32 bits. The model accepts only ASCII digits, where Java also accepts other Unicode decimal digits. |
| Query.ParseFormat | src/main/java/lwsoft/club/log/reader/Main.java:194 | parseInt reads back every 32-bit value that toString writes. |
| Query.ParseRejectsOutOfRange | src/main/java/lwsoft/club/log/reader/Main.java:194 | parseInt rejects every out-of-range value that toString writes. |
| Query.ParseSamples | src/main/java/lwsoft/club/log/reader/Main.java:194 | parseInt rejects "-", "" and "1a", and accepts "+7" as 7. |
| Sessions.Classify | src/main/java/lwsoft/club/log/reader/Main.java:185-194 | A handshake is rejected exactly when serverId is missing or unknown, or number is missing. It fails exactly when number does not parse, or when lines are asked for and the server's file is missing. It is admitted otherwise, with the parsed number. |
| Sessions.PiecesMeaning | src/main/java/lwsoft/club/log/reader/Main.java:195-205 | The full 1024-character pieces followed by the remainder give back the backlog. Every piece is full and the remainder is shorter. |
| Sessions.PiecesUnique | src/main/java/lwsoft/club/log/reader/Main.java:195-205 | Any split of the backlog into full pieces and a shorter remainder is that one. |
| Sessions.GatherStep | src/main/java/lwsoft/club/log/reader/Main.java:196-201 | Appending one character keeps "pieces sent, then the builder" equal to the text read so far. A builder that reaches 1024 characters becomes a sent piece. |
| Sessions.Messages | src/main/java/lwsoft/club/log/reader/Main.java:293-297 | The messages produced from a run of chunks are never empty, and there are at most as many as chunks. |
| Sessions.Broadcast | src/main/java/lwsoft/club/log/reader/Main.java:297-301 | After a broadcast, each subscriber's chain grows by the messages, in order, and every other chain is unchanged. |
| Sessions.BroadcastTwice | src/main/java/lwsoft/club/log/reader/Main.java:297-301 | Broadcasting two runs of messages one after the other is broadcasting both at once. |
| Sessions.BroadcastOneMore | src/main/java/lwsoft/club/log/reader/Main.java:298-300 | Sending a message to one more channel extends the broadcast by that channel. |
| Sessions.UnsubscribeMeaning | src/main/java/lwsoft/club/log/reader/Main.java:224-235 | After a channel leaves: it watches nothing, and no set is empty. Every other channel watches what it watched before. A server keeps its entry exactly when another channel still watches it. |
| Sessions.LeaveEntry | src/main/java/lwsoft/club/log/reader/Main.java:227-233 | One turn of the iterator: other entries are unchanged, and the entry keeps, without the channel, exactly when it did not hold the channel or held another one. |
| Sessions.LeavingDone | src/main/java/lwsoft/club/log/reader/Main.java:224-235 | Once every entry has been visited, the registry is what Unsubscribe makes of the snapshot. |
| Sessions.MatchesAfterJoin | src/main/java/lwsoft/club/log/reader/Main.java:206-207 | A channel joining a server whose file is then watched keeps the server entries matched with the watcher. |
| Sessions.MatchesAfterLeave | src/main/java/lwsoft/club/log/reader/Main.java:227-233 | Removing a channel from one entry, and with an emptied entry its file's watcher, keeps the match. |
| Sessions.AttachedAfterJoin | src/main/java/lwsoft/club/log/reader/Main.java:199-213 | A channel that joins a server, is sent the backlog and gets the attribute keeps every queued or watching channel attached. |
| Sessions.AttachedAfterLeave | src/main/java/lwsoft/club/log/reader/Main.java:228-229 | A channel that leaves every set and loses its last future keeps the registry attached. |
| Sessions.AttachedAfterBroadcast | src/main/java/lwsoft/club/log/reader/Main.java:297-301 | Broadcasting to a server's channels keeps the registry attached. |
| Sessions.WebSocketFrameHandler.constructor | src/main/java/lwsoft/club/log/reader/Main.java:173-180 | An empty registry with an empty watcher is valid. |
| Sessions.WebSocketFrameHandler.SendMessage | src/main/java/lwsoft/club/log/reader/Main.java:247-256 | The message joins the end of the channel's queue of writes, and no other channel's queue changes. This is the order of writes: the first is written at once and its future stored; each later one is a listener on that stored future, which `addListener` returns unchanged. |
| Sessions.WebSocketFrameHandler.SendBacklog | src/main/java/lwsoft/club/log/reader/Main.java:195-205 | The StringBuilder loop sends exactly the full 1024-character pieces of the backlog, in order, to the channel. It returns the remainder to write directly, or nothing when the remainder is empty. |
| Sessions.WebSocketFrameHandler.CreateWatcher | src/main/java/lwsoft/club/log/reader/Main.java:274-279 | Afterwards the server's file is watched. A Sender for the server, with a fresh loader at the file's current end, is registered only when no thread watched the file, and an existing registration is kept. |
| Sessions.WebSocketFrameHandler.Handshake | src/main/java/lwsoft/club/log/reader/Main.java:183-213 | Rejected requests change nothing. Failed ones only give the channel the attribute. Accepted ones add the channel to the server's set, send the backlog's full pieces and return the remainder, watch the server's file, and give the attribute. The invariant is kept throughout. |
| Sessions.WebSocketFrameHandler.MarkChannel | src/main/java/lwsoft/club/log/reader/Main.java:213 | Giving the attribute changes no registry map and keeps the invariant. |
| Sessions.WebSocketFrameHandler.Register | src/main/java/lwsoft/club/log/reader/Main.java:193-207 | The backlog is read from the file and sent, the watcher is created only if missing, with its loader's cursor at the end of the content just read (so the backlog is not delivered again), the channel joins the server's set, and the invariant is kept. |
| Sessions.WebSocketFrameHandler.ChannelInactive | src/main/java/lwsoft/club/log/reader/Main.java:220-241 | Without the attribute, nothing changes. With it, the registry becomes Unsubscribe of the old one and the channel's last future is dropped. Every server that lost its entry loses its file's watcher, the watcher's maps only shrink, and the invariant is kept. |
| Sessions.WebSocketFrameHandler.LeaveAll | src/main/java/lwsoft/club/log/reader/Main.java:224-235 | The iterator loop over the entries yields Unsubscribe of the snapshot, drops the channel's last future, and keeps the entries matched with a watcher whose maps only shrink. |
| Sessions.WebSocketFrameHandler.LeaveServer | src/main/java/lwsoft/club/log/reader/Main.java:226-234 | One entry loses the channel, and the channel loses its last future, when the entry held it. An emptied entry takes its file's watcher with it. |
| Sessions.WebSocketFrameHandler.SenderHandle | src/main/java/lwsoft/club/log/reader/Main.java:291-303 | The decoded chunk is sent to every channel watching the server, to none when the server has no entry, and only when the message is not empty. |
| Sessions.WebSocketFrameHandler.HandleAll | src/main/java/lwsoft/club/log/reader/FileWatcher.java:45-52 | Handing each chunk of a drain, in order, to the server's Sender broadcasts the run of non-empty decoded messages to its channels. |
| Sessions.WebSocketFrameHandler.Poll | src/main/java/lwsoft/club/log/reader/FileWatcher.java:43-53 | One turn of a watched file's thread reads everything appended since the last turn. It broadcasts every non-empty decoded chunk, in order, to the channels of the server that owns the file, and keeps the invariant. When the file has shrunk below the cursor, nothing is read or sent and the cursor stays (FileChangeLoader.read returns null). |

## Left out

- Netty, HTTP routing, static assets, the JSON server list, YAML configuration
  and logging are not part of this model. The configuration is a given map
  from server id to file path.
- Threads, `Thread.sleep`, `interrupt`, `synchronized` and the lock: each
  registry operation and each turn of a watching thread is one atomic step.
  Removing a file's thread stands for interrupting it. The lock
  (Main.java:191-211, 222-237) covers only the handshake and the disconnect.
- Sessions.WebSocketFrameHandler.Poll, SenderHandle and HandleAll: each
  fan-out is one atomic step, which the source does not guarantee. In
  `Sender.handle` (Main.java:291-303) the watching thread reads
  `serverWatchingSessionMap`, and through `sendMessage` (Main.java:247-256)
  writes `channelLastFutureMap`, without the lock. Both can interleave with
  the iterator removal in `channelInactive`. The races are not modelled.
- FileWatching.FileWatcher.Remove is not `synchronized` (FileWatcher.java:27-33),
  while the watching thread reads the handler map (FileWatcher.java:46). An
  interleaving of the two is not modelled.
- I/O: a file is its contents at the moment an operation looks at it, a map
  from path to bytes. A read is assumed to return every available byte up to
  the buffer size. Short reads and I/O errors are not modelled, except the
  missing file on the handshake path.
- Sessions.WebSocketFrameHandler.Register: when lines are not asked for
  (number 0) and the file is missing, the source's watching thread fails to
  open the file and ends. Here the loader is opened on an empty file instead.
- UTF-8 decoding (`new String(..., UTF_8)` and the `Sender`'s
  `CharsetDecoder`) is a function the caller gives. Per chunk, it is
  stateless, as in the source, where undecoded trailing bytes are dropped
  when the next read clears the buffer. The tail scan's result is kept as
  bytes.
- Text is a sequence of characters, each standing for a UTF-16 code unit.
  The 1024-character pieces count those units.
- `sendMessage`'s futures: a channel's entry is the sequence of messages sent
  through `sendMessage`, in the order they are written. The source stores
  only the first write's future, because `addListener` returns the same
  future (Main.java:251, 255). Every later message is a listener on that
  first future. The future object itself is not modelled.
- The direct `writeAndFlush` of the backlog's last piece (Main.java:204) is
  outside that queue: the handshake returns it. Its order relative to the
  listener writes still pending is not modelled.
- Handler exceptions inside the watch loop are swallowed in the source. The
  model's handlers cannot fail.
- `FileWatching.FileWatcher.PollOnce`: the source looks the handler up again
  for every chunk and hands each chunk over before the next read. The model
  drains first and looks the handler up once. Within one atomic turn these
  agree.
- `Sessions.WebSocketFrameHandler.constructor` requires that no two servers
  share a file. The source does not check this. With a shared file, one
  server's disconnect would stop the other's watcher, and the invariant could
  not hold. Also, `createWatcher` registers a `Sender` only when no thread
  watches the file (Main.java:276-277). The first server's `Sender` is kept,
  and it serves only its own id (Main.java:298-299). The second server's
  channels would never get live updates.
- URI parsing (`URI.create`, `getQuery`, percent-decoding) is not modelled.
  The handshake takes the query part directly, and `None` stands for a URI
  without one.
- `Query.ParseInt` accepts ASCII digits only. Java's `Integer.parseInt` also
  accepts any other Unicode decimal digit (through `Character.digit`). Those
  are not modelled, and the model rejects them.
- `lineCount` in readLastNLines is an unbounded integer. It cannot overflow
  32 bits: the loop stops once `lineCount` reaches n, which is at most
  2^31 - 1, or reaches 1 when n is negative.
- The other-event branch of `userEventTriggered` only passes the event on.
  `channelRead0` of the WebSocket handler (Main.java:244-245) has an empty
  body, so every frame a client sends is dropped. Neither is modelled.
- Sessions.WebSocketFrameHandler.Handshake: its contract leaves the details
  of the new watcher entry (the fresh loader and its Sender) to Register and
  CreateWatcher. It states only that the file is watched.

## Findings

| source | as written | input that shows it | evidently intended | confidence | as-written member | corrected member |
|---|---|---|---|---|---|---|
| src/main/java/lwsoft/club/log/reader/TailReader.java:23-25 | After the cursor is clamped to 0, the read still fills a whole 128-byte buffer. Bytes from the old cursor up to 128, already scanned, are scanned and written again. | A file of 129 bytes without a newline, with n = 1: the result is bytes 0..127 followed by bytes 1..128, which is 256 bytes. | The last read stops at the previous cursor, so that the result is the last n lines. | not executed | TailReader.RescanDuplicatesBytes | TailReader.TailOfCorrectedIsLastLines |

=== FILE: common.dfy ===
/** Small helpers shared by the modules of the log viewer model. */
module Common {

  /** A value that may be absent: stands for a Java reference that may be null. */
  datatype Option<+T> = None | Some(value: T)

  function Min(a: int, b: int): (m: int)
    ensures m <= a && m <= b && (m == a || m == b)
  {
    if a < b then a else b
  }

  /** Every entry of small is an entry of large. */
  ghost predicate Submap<K, V>(small: map<K, V>, large: map<K, V>)
  {
    forall k :: k in small ==> k in large && small[k] == large[k]
  }

  /** Taking an element out of a set makes it smaller. */
  lemma RemoveShrinks<T>(s: set<T>, x: T)
    requires x in s
    ensures |s - {x}| == |s| - 1
  {
  }

  lemma SubmapRemove<K, V>(m: map<K, V>, k: K)
    ensures Submap(m - {k}, m) && Submap(m, m)
  {
  }

  lemma SubmapTransitive<K, V>(a: map<K, V>, b: map<K, V>, c: map<K, V>)
    requires Submap(a, b) && Submap(b, c)
    ensures Submap(a, c)
  {
  }

  /** Two adjacent slices make up the slice that spans both. */
  lemma SliceJoin<T>(s: seq<T>, i: nat, j: nat, k: nat)
    requires i <= j <= k <= |s|
    ensures s[i..k] == s[i..j] + s[j..k]
  {
  }

  /** The concatenation of a sequence of pieces, in order. */
  function Concat<T>(pieces: seq<seq<T>>): (r: seq<T>)
    decreases |pieces|
  {
    if pieces == [] then [] else Concat(pieces[..|pieces| - 1]) + pieces[|pieces| - 1]
  }

  lemma {:induction false} ConcatAppend<T>(pieces: seq<seq<T>>, last: seq<T>)
    ensures Concat(pieces + [last]) == Concat(pieces) + last
  {
    assert (pieces + [last])[..|pieces|] == pieces;
  }

  /** Appending one more piece to the pieces already appended after prefix. */
  lemma ConcatAppendAfter<T>(prefix: seq<T>, pieces: seq<seq<T>>, last: seq<T>)
    ensures prefix + Concat(pieces + [last]) == (prefix + Concat(pieces)) + last
  {
    ConcatAppend(pieces, last);
    assert prefix + (Concat(pieces) + last) == (prefix + Concat(pieces)) + last;
  }

  lemma {:induction false} ConcatPrepend<T>(first: seq<T>, pieces: seq<seq<T>>)
    ensures Concat([first] + pieces) == first + Concat(pieces)
    decreases |pieces|
  {
    if pieces == [] {
      assert [first] + pieces == [] + [first];
      ConcatAppend([], first);
    } else {
      var init, last := pieces[..|pieces| - 1], pieces[|pieces| - 1];
      assert pieces == init + [last];
      ConcatPrepend(first, init);
      ConcatPrependStep(first, init, last);
    }
  }

  /** One step of ConcatPrepend: the last piece goes after the rest. */
  lemma ConcatPrependStep<T>(first: seq<T>, init: seq<seq<T>>, last: seq<T>)
    requires Concat([first] + init) == first + Concat(init)
    ensures Concat([first] + (init + [last])) == first + Concat(init + [last])
  {
    assert [first] + (init + [last]) == ([first] + init) + [last];
    ConcatAppend([first] + init, last);
    ConcatAppend(init, last);
    assert (first + Concat(init)) + last == first + (Concat(init) + last);
  }
}

=== FILE: file_watcher.dfy ===
/**
 * The file watcher: one watching thread per file, each running a
 * FileChangeLoader that reads the bytes appended to its file since the thread
 * started, and a handler per file that receives every chunk read.
 *
 * A file's contents are a byte sequence that the outside world may change
 * between calls (usually by appending); every operation that looks at the file
 * takes its contents at that moment as a parameter. A thread is represented by
 * the loader it runs; one call of PollOnce is one turn of the thread's loop
 * (drain the loader, hand each chunk over, then sleep).
 */
module FileWatching {
  import opened Common

  /** A file, identified by its path. */
  type File = string

  /** The buffer size every watching thread gives its loader. */
  const LOADER_BUFFER_SIZE: nat := 1024

  /**
   * A cursor over a file that only ever moves forward. It starts at the length
   * the file had when the loader was opened, so bytes already present then are
   * never returned; each Read returns the next bytes, at most bufferSize of
   * them, or nothing.
   */
  class FileChangeLoader {
    const bufferSize: nat
    /** Where the cursor started: the file length when the loader was opened. */
    ghost const start: nat
    /** The channel position: the offset of the next byte to read. */
    var position: nat
    /** Every byte returned so far, in order. */
    ghost var delivered: seq<bv8>

    /**
     * The bytes returned so far are exactly those of file between the start
     * and the cursor.
     */
    ghost predicate Tracks(file: seq<bv8>)
      reads this
    {
      start <= position <= |file| && delivered == file[start..position]
    }

    /** Opens the file and moves the cursor to its current end. */
    constructor (file: seq<bv8>, bufferSize: nat)
      ensures this.bufferSize == bufferSize
      ensures start == position == |file| && delivered == []
      ensures Tracks(file)
    {
      this.bufferSize := bufferSize;
      start := |file|;
      position := |file|;
      delivered := [];
    }

    /**
     * One read of the channel into the cleared buffer: nothing when no byte
     * is available at the cursor (at or past the end of the file, or a buffer
     * of size 0); otherwise the next min(bufferSize, available) bytes, and the
     * cursor moves past them.
     */
    method Read(file: seq<bv8>) returns (chunk: Option<seq<bv8>>)
      modifies this
      ensures old(position) >= |file| || bufferSize == 0 ==>
        chunk == None && position == old(position) && delivered == old(delivered)
      ensures old(position) < |file| && bufferSize > 0 ==>
        var k := Min(bufferSize, |file| - old(position));
        && chunk == Some(file[old(position)..old(position) + k])
        && position == old(position) + k
        && delivered == old(delivered) + chunk.value
      ensures chunk.Some? ==> 0 < |chunk.value| <= bufferSize
      ensures position >= old(position)
      ensures old(Tracks(file)) ==> Tracks(file)
    {
      if position >= |file| || bufferSize == 0 {
        return None;
      }
      var k := Min(bufferSize, |file| - position);
      var bytes := file[position..position + k];
      position := position + k;
      delivered := delivered + bytes;
      chunk := Some(bytes);
    }

    /**
     * The inner loop of the watching thread: reads until a read returns
     * nothing, and returns the chunks read, in order. When the cursor was
     * within the file, the chunks together are everything from the cursor to
     * the end, each holds 1..bufferSize bytes, and all but the last are full.
     */
    method ReadAvailable(content: seq<bv8>) returns (chunks: seq<seq<bv8>>)
      modifies this
      ensures old(position) <= |content| && bufferSize > 0 ==>
        Concat(chunks) == content[old(position)..] && position == |content|
      ensures old(position) >= |content| || bufferSize == 0 ==> chunks == [] && position == old(position)
      ensures Chunked(chunks, bufferSize)
      ensures delivered == old(delivered) + Concat(chunks)
      ensures old(Tracks(content)) ==> Tracks(content)
    {
      ghost var from := position;
      chunks := [];
      var more := true;
      while more
        invariant Drain(content, from, position, chunks, bufferSize, more)
        invariant delivered == old(delivered) + Concat(chunks)
        decreases more, |content| - position
      {
        ghost var before := position;
        var buffer := Read(content);
        match buffer {
          case None =>
            DrainStops(content, from, before, chunks, bufferSize);
            more := false;
          case Some(bytes) =>
            assert before < |content| && bufferSize > 0;
            assert position == before + Min(bufferSize, |content| - before);
            ConcatAppendAfter(old(delivered), chunks, bytes);
            DrainStep(content, from, before, chunks, bufferSize, bytes);
            chunks := chunks + [bytes];
        }
      }
    }

    /**
     * Appending to the file keeps the loader consistent with it: what was
     * returned is still the stretch of the file between start and cursor.
     */
    lemma TracksAfterAppend(file: seq<bv8>, appended: seq<bv8>)
      requires Tracks(file)
      ensures Tracks(file + appended)
    {
      assert (file + appended)[start..position] == file[start..position];
    }
  }

  /**
   * Chunks as one drain of a loader with the given buffer size yields them:
   * each holds 1..size bytes, and all but the last are full.
   */
  ghost predicate Chunked(chunks: seq<seq<bv8>>, size: nat)
  {
    && (forall i :: 0 <= i < |chunks| ==> 0 < |chunks[i]| <= size)
    && (forall i :: 0 <= i < |chunks| - 1 ==> |chunks[i]| == size)
  }

  lemma ChunkedAppend(chunks: seq<seq<bv8>>, bytes: seq<bv8>, size: nat)
    requires Chunked(chunks, size) && 0 < |bytes| <= size
    requires |chunks| > 0 ==> |chunks[|chunks| - 1]| == size
    ensures Chunked(chunks + [bytes], size)
  {
  }

  /**
   * Part way through one drain of a loader that started at start and is now
   * at position, over a file holding content: the chunks read so far are the
   * bytes between the two, chunked as Chunked says; a short chunk is read
   * only at the end of the file; the drain stops (more is false) only there,
   * or when nothing can be read at all.
   */
  ghost predicate Drain(content: seq<bv8>, start: nat, position: nat, chunks: seq<seq<bv8>>, size: nat, more: bool)
  {
    && position >= start
    && (start <= |content| ==> position <= |content| && Concat(chunks) == content[start..position])
    && (start >= |content| || size == 0 ==> chunks == [] && position == start)
    && Chunked(chunks, size)
    && (|chunks| > 0 && |chunks[|chunks| - 1]| < size ==> position == |content|)
    && (!more && start <= |content| && size > 0 ==> position == |content|)
  }

  /** A read that returns bytes continues the drain. */
  lemma DrainStep(content: seq<bv8>, start: nat, position: nat, chunks: seq<seq<bv8>>, size: nat, bytes: seq<bv8>)
    requires Drain(content, start, position, chunks, size, true)
    requires position < |content| && size > 0
    requires bytes == content[position..position + Min(size, |content| - position)]
    ensures Drain(content, start, position + Min(size, |content| - position), chunks + [bytes], size, true)
  {
    ConcatAppend(chunks, bytes);
    ChunkedAppend(chunks, bytes, size);
    SliceJoin(content, start, position, position + Min(size, |content| - position));
  }

  /** A read that returns nothing ends the drain. */
  lemma DrainStops(content: seq<bv8>, start: nat, position: nat, chunks: seq<seq<bv8>>, size: nat)
    requires Drain(content, start, position, chunks, size, true)
    requires position >= |content| || size == 0
    ensures Drain(content, start, position, chunks, size, false)
  {
  }

  /**
   * The two maps of the watcher, keyed by file: the running thread (here, the
   * loader it runs) and the current handler.
   */
  class FileWatcher<H> {
    var threads: map<File, FileChangeLoader>
    var handlers: map<File, H>

    /**
     * The maps hold the same files, no two files share a thread, and every
     * thread reads with the watcher's buffer size.
     */
    ghost predicate Valid()
      reads this
    {
      && threads.Keys == handlers.Keys
      && (forall f, g :: f in threads && g in threads && f != g ==> threads[f] != threads[g])
      && (forall f :: f in threads ==> threads[f].bufferSize == LOADER_BUFFER_SIZE)
    }

    constructor ()
      ensures Valid() && threads == map[] && handlers == map[]
    {
      threads := map[];
      handlers := map[];
    }

    /** Whether a thread watches file; in a valid watcher, also whether it has a handler. */
    function Contains(file: File): (r: bool)
      reads this
      ensures r <==> file in threads
      ensures Valid() ==> (r <==> file in handlers)
    {
      file in threads
    }

    /**
     * Starts a thread for file if none watches it yet (its loader opens the
     * file as it is now, fileNow), then makes handler the file's handler,
     * replacing any previous one.
     */
    method AddListener(file: File, handler: H, fileNow: seq<bv8>)
      requires Valid()
      modifies this
      ensures Valid()
      ensures Contains(file) && handlers == old(handlers)[file := handler]
      ensures file in old(threads) ==> threads == old(threads)
      ensures file !in old(threads) ==>
        && threads == old(threads)[file := threads[file]]
        && fresh(threads[file])
        && threads[file].bufferSize == LOADER_BUFFER_SIZE
        && threads[file].Tracks(fileNow) && threads[file].delivered == []
        && threads[file].position == |fileNow|
    {
      if file !in threads {
        var loader := new FileChangeLoader(fileNow, LOADER_BUFFER_SIZE);
        threads := threads[file := loader];
      }
      handlers := handlers[file := handler];
    }

    /**
     * Stops the thread watching file, if any, and drops its handler; the
     * entries of other files stay as they were, and removing a file that is
     * not watched changes nothing.
     */
    method Remove(file: File)
      requires Valid()
      modifies this
      ensures Valid() && !Contains(file)
      ensures threads == old(threads) - {file} && handlers == old(handlers) - {file}
      ensures file !in old(threads) ==> threads == old(threads) && handlers == old(handlers)
    {
      threads := threads - {file};
      handlers := handlers - {file};
    }

    /**
     * One turn of the loop run by the thread watching file, whose contents are
     * now content: read until the loader returns nothing, each chunk going to
     * the handler registered for file at that moment (none: the chunk is
     * dropped). Returns the chunks read and that handler.
     */
    method PollOnce(file: File, content: seq<bv8>) returns (chunks: seq<seq<bv8>>, handler: Option<H>)
      requires file in threads
      modifies threads[file]
      ensures handler == if file in handlers then Some(handlers[file]) else None
      ensures var loader := threads[file];
        && (old(loader.position) <= |content| && loader.bufferSize > 0 ==>
              Concat(chunks) == content[old(loader.position)..] && loader.position == |content|)
        && (old(loader.position) >= |content| || loader.bufferSize == 0 ==>
              chunks == [] && loader.position == old(loader.position))
        && Chunked(chunks, loader.bufferSize)
        && loader.delivered == old(loader.delivered) + Concat(chunks)
        && (old(loader.Tracks(content)) ==> loader.Tracks(content))
    {
      handler := if file in handlers then Some(handlers[file]) else None;
      chunks := threads[file].ReadAvailable(content);
    }
  }
}

=== FILE: query.dfy ===
/**
 * Reading the parameters of the WebSocket request: getQueryParam of
 * WebSocketFrameHandler over the query part of the request URI, the Java
 * String.split it is built on (for a one-character delimiter), and
 * Integer.parseInt, which turns the "number" parameter into a line count.
 */
module Query {
  import opened Common

  // ---------------------------------------------------------------------------
  // String.split with a one-character delimiter
  // ---------------------------------------------------------------------------

  /**
   * Every field of s between occurrences of d, empty fields included: one
   * more field than there are occurrences of d.
   */
  function Fields(s: string, d: char): (r: seq<string>)
    ensures |r| >= 1
    decreases |s|
  {
    if |s| == 0 then [[]]
    else
      var rest := Fields(s[1..], d);
      if s[0] == d then [[]] + rest
      else [[s[0]] + rest[0]] + rest[1..]
  }

  /** The pieces joined back together with d between them. */
  function Join(pieces: seq<string>, d: char): (joined: string)
    decreases |pieces|
  {
    if |pieces| == 0 then []
    else if |pieces| == 1 then pieces[0]
    else pieces[0] + [d] + Join(pieces[1..], d)
  }

  /** pieces with its trailing empty strings dropped. */
  function DropTrailingEmpty(pieces: seq<string>): (r: seq<string>)
    ensures r <= pieces
    ensures r == [] || r[|r| - 1] != []
    ensures forall i :: |r| <= i < |pieces| ==> pieces[i] == []
    decreases |pieces|
  {
    if |pieces| == 0 || pieces[|pieces| - 1] != [] then pieces
    else DropTrailingEmpty(pieces[..|pieces| - 1])
  }

  /**
   * Java's s.split(d) for a delimiter that is not a regular-expression
   * metacharacter: no occurrence of d gives [s] (even for the empty string);
   * otherwise the fields between occurrences, with trailing empty fields
   * dropped.
   */
  function Split(s: string, d: char): (fields: seq<string>)
  {
    if d !in s then [s] else DropTrailingEmpty(Fields(s, d))
  }

  lemma {:induction false} FieldsHaveNoDelimiter(s: string, d: char)
    ensures forall i :: 0 <= i < |Fields(s, d)| ==> d !in Fields(s, d)[i]
    decreases |s|
  {
    if |s| > 0 {
      FieldsHaveNoDelimiter(s[1..], d);
    }
  }

  lemma {:induction false} JoinFields(s: string, d: char)
    ensures Join(Fields(s, d), d) == s
    decreases |s|
  {
    if |s| > 0 {
      var rest := Fields(s[1..], d);
      JoinFields(s[1..], d);
      if s[0] == d {
        assert ([[]] + rest)[1..] == rest;
      } else {
        var r := [[s[0]] + rest[0]] + rest[1..];
        assert r[1..] == rest[1..];
        if |rest| > 1 {
          assert rest[1..][1..] == rest[2..];
          assert Join(rest, d) == rest[0] + [d] + Join(rest[1..], d);
        }
      }
    }
  }

  lemma {:induction false} JoinEmptyTail(pieces: seq<string>, k: nat, d: char)
    requires 0 < k <= |pieces|
    requires forall i :: k <= i < |pieces| ==> pieces[i] == []
    ensures Join(pieces, d) == Join(pieces[..k], d) + seq(|pieces| - k, i => d)
    decreases k
  {
    if k == 1 {
      JoinOfEmpties(pieces[1..], d);
      assert pieces[..1] == [pieces[0]];
    } else {
      JoinEmptyTail(pieces[1..], k - 1, d);
      assert pieces[..k][1..] == pieces[1..][..k - 1];
    }
  }

  lemma {:induction false} JoinOfEmpties(pieces: seq<string>, d: char)
    requires forall i :: 0 <= i < |pieces| ==> pieces[i] == []
    ensures |pieces| > 0 ==> Join(pieces, d) == seq(|pieces| - 1, i => d)
    ensures |pieces| > 0 ==> [d] + Join(pieces, d) == seq(|pieces|, i => d)
    decreases |pieces|
  {
    if |pieces| > 1 {
      JoinOfEmpties(pieces[1..], d);
    }
  }

  /**
   * What split keeps: the pieces contain no d, joined with d they give a
   * prefix of s, and only copies of d follow that prefix in s. When s
   * contains d, the last piece kept is not empty.
   */
  lemma SplitMeaning(s: string, d: char)
    ensures forall i :: 0 <= i < |Split(s, d)| ==> d !in Split(s, d)[i]
    ensures Join(Split(s, d), d) <= s
    ensures forall i :: |Join(Split(s, d), d)| <= i < |s| ==> s[i] == d
    ensures d in s ==> Split(s, d) == [] || Split(s, d)[|Split(s, d)| - 1] != []
    ensures d !in s ==> Split(s, d) == [s]
  {
    if d in s {
      FieldsHaveNoDelimiter(s, d);
      JoinFields(s, d);
      DropTrailingMeaning(Fields(s, d), s, d);
    }
  }

  /**
   * Dropping the trailing empty fields of fields that hold no d and join to
   * s: what is kept holds no d, joins to a prefix of s, and only copies of d
   * follow that prefix.
   */
  lemma DropTrailingMeaning(fields: seq<string>, s: string, d: char)
    requires forall i :: 0 <= i < |fields| ==> d !in fields[i]
    requires Join(fields, d) == s
    requires |fields| >= 1
    ensures var r := DropTrailingEmpty(fields);
      && (forall i :: 0 <= i < |r| ==> d !in r[i])
      && Join(r, d) <= s
      && (forall i :: |Join(r, d)| <= i < |s| ==> s[i] == d)
  {
    var r := DropTrailingEmpty(fields);
    assert r == fields[..|r|];
    if |r| == 0 {
      JoinOfEmpties(fields, d);
    } else {
      JoinEmptyTail(fields, |r|, d);
    }
    forall i | 0 <= i < |r|
      ensures d !in r[i]
    {
      assert r[i] == fields[i];
    }
  }

  // ---------------------------------------------------------------------------
  // getQueryParam
  // ---------------------------------------------------------------------------

  /** A pair that splits on '=' into exactly two parts, the first being name. */
  predicate Names(pair: string, name: string)
  {
    var kv := Split(pair, '=');
    |kv| == 2 && kv[0] == name
  }

  /** The value of the first pair that Names name, if any. */
  function FirstValue(pairs: seq<string>, name: string): (r: Option<string>)
    ensures r.None? <==> forall i :: 0 <= i < |pairs| ==> !Names(pairs[i], name)
    ensures r.Some? ==> exists i :: (0 <= i < |pairs| && Names(pairs[i], name) &&
      r.value == Split(pairs[i], '=')[1] && forall j :: 0 <= j < i ==> !Names(pairs[j], name))
    decreases |pairs|
  {
    if |pairs| == 0 then None
    else if Names(pairs[0], name) then Some(Split(pairs[0], '=')[1])
    else
      var r := FirstValue(pairs[1..], name);
      assert forall i :: 1 <= i < |pairs| ==> pairs[i] == pairs[1..][i - 1];
      r
  }

  /**
   * getQueryParam on the query of the request URI (None when the URI has no
   * query): the value of the first '&'-separated pair that splits on '=' into
   * exactly the parameter's name and a value.
   */
  function GetQueryParam(query: Option<string>, name: string): (r: Option<string>)
    ensures query.None? ==> r.None?
    ensures query.Some? ==> r == FirstValue(Split(query.value, '&'), name)
  {
    if query.None? then None else FirstValue(Split(query.value, '&'), name)
  }

  /** A field without d splits into itself. */
  lemma {:induction false} FieldsWithoutDelimiter(a: string, d: char)
    requires d !in a
    ensures Fields(a, d) == [a]
    decreases |a|
  {
    if |a| > 0 {
      FieldsWithoutDelimiter(a[1..], d);
      assert [a[0]] + a[1..] == a;
    }
  }

  /** A field without d, then d: the field comes first, then the fields of the rest. */
  lemma {:induction false} FieldsCons(a: string, rest: string, d: char)
    requires d !in a
    ensures Fields(a + [d] + rest, d) == [a] + Fields(rest, d)
    decreases |a|
  {
    var s := a + [d] + rest;
    if |a| == 0 {
      assert s[1..] == rest;
    } else {
      assert s[1..] == a[1..] + [d] + rest;
      FieldsCons(a[1..], rest, d);
      assert [a[0]] + a[1..] == a;
    }
  }

  /** name=value with neither part holding '=' and a value that is not empty. */
  lemma SplitPair(name: string, value: string, d: char)
    requires d !in name && d !in value && value != []
    ensures Split(name + [d] + value, d) == [name, value]
  {
    var s := name + [d] + value;
    assert s[|name|] == d;
    FieldsCons(name, value, d);
    FieldsWithoutDelimiter(value, d);
  }

  /** Three fields, the last not empty. */
  lemma SplitTriple(a: string, b: string, c: string, d: char)
    requires d !in a && d !in b && d !in c && c != []
    ensures Split(a + [d] + b + [d] + c, d) == [a, b, c]
  {
    var s := a + [d] + b + [d] + c;
    assert s[|a|] == d;
    assert s == a + [d] + (b + [d] + c);
    FieldsCons(a, b + [d] + c, d);
    FieldsCons(b, c, d);
    FieldsWithoutDelimiter(c, d);
  }

  /**
   * The pair a value was taken from: the value is not empty and holds no '=',
   * and the pair is the name, '=', the value and nothing but further '='.
   */
  lemma PairShape(pair: string, name: string, value: string)
    requires Split(pair, '=') == [name, value]
    ensures value != [] && '=' !in value && '=' !in name
    ensures |name| + 1 + |value| <= |pair| && pair[..|name| + 1 + |value|] == name + "=" + value
    ensures forall j :: |name| + 1 + |value| <= j < |pair| ==> pair[j] == '='
  {
    SplitMeaning(pair, '=');
    var kv := Split(pair, '=');
    assert Join(kv, '=') == name + "=" + value by {
      assert kv[1..] == [value];
    }
  }

  /** The value taken from a pair holds no character the pair does not hold. */
  lemma ValueWithin(pair: string, name: string, value: string, c: char)
    requires Split(pair, '=') == [name, value] && c !in pair
    ensures value != [] && '=' !in value && '=' !in name && c !in value
  {
    PairShape(pair, name, value);
    var prefix := pair[..|name| + 1 + |value|];
    assert value == prefix[|name| + 1..];
    assert c !in prefix;
  }

  /** The index of the pair FirstValue takes its value from. */
  lemma {:induction false} FirstValueIndex(pairs: seq<string>, name: string) returns (i: nat)
    requires FirstValue(pairs, name).Some?
    ensures i < |pairs| && Names(pairs[i], name)
    ensures Split(pairs[i], '=') == [name, FirstValue(pairs, name).value]
    decreases |pairs|
  {
    if Names(pairs[0], name) {
      i := 0;
      var kv := Split(pairs[0], '=');
      assert kv == [kv[0], kv[1]];
    } else {
      var j := FirstValueIndex(pairs[1..], name);
      i := j + 1;
    }
  }

  /** The value getQueryParam finds is never empty and holds neither '=' nor '&'. */
  lemma FoundValueShape(query: string, name: string)
    requires GetQueryParam(Some(query), name).Some?
    ensures var v := GetQueryParam(Some(query), name).value;
      v != [] && '=' !in v && '&' !in v && '=' !in name
  {
    var pairs := Split(query, '&');
    var i := FirstValueIndex(pairs, name);
    assert '&' !in pairs[i] by {
      SplitMeaning(query, '&');
    }
    ValueWithin(pairs[i], name, FirstValue(pairs, name).value, '&');
  }

  /** A pair with a second '=' and a value after it is skipped for a later pair that names the parameter. */
  lemma ExtraEqualsSkipped()
    ensures GetQueryParam(Some("a=b=c&a=d"), "a") == Some("d")
  {
    SplitPair("a=b=c", "a=d", '&');
    assert "a=b=c" + "&" + "a=d" == "a=b=c&a=d";
    ExtraEqualsNamesNothing();
    SplitPair("a", "d", '=');
    assert "a" + "=" + "d" == "a=d";
    assert ["a=b=c", "a=d"][1..] == ["a=d"];
  }

  /** A pair with a second '=' names no parameter: on its own, the parameter is missing. */
  lemma ExtraEqualsNamesNothing()
    ensures !Names("a=b=c", "a")
    ensures GetQueryParam(Some("a=b=c"), "a") == None
  {
    SplitTriple("a", "b", "c", '=');
    assert "a" + "=" + "b" + "=" + "c" == "a=b=c";
    assert '&' !in "a=b=c";
  }

  // ---------------------------------------------------------------------------
  // Integer.parseInt
  // ---------------------------------------------------------------------------

  const INT_MIN: int := -0x8000_0000
  const INT_MAX: int := 0x7fff_ffff

  predicate IsDigit(c: char) { '0' <= c <= '9' }

  function DigitValue(c: char): (v: nat)
    requires IsDigit(c)
  {
    c as int - '0' as int
  }

  predicate AllDigits(s: string)
  {
    forall i :: 0 <= i < |s| ==> IsDigit(s[i])
  }

  /** The decimal value of a string of digits, most significant first. */
  function DigitsValue(s: string): (v: nat)
    requires AllDigits(s)
    decreases |s|
  {
    if |s| == 0 then 0 else DigitsValue(s[..|s| - 1]) * 10 + DigitValue(s[|s| - 1])
  }

  /**
   * Integer.parseInt(s): an optional '-' or '+', then at least one digit
   * and nothing else, with a value that fits a 32-bit int; None stands for
   * the NumberFormatException thrown otherwise. Only ASCII digits are
   * accepted here, where Java also takes other Unicode decimal digits.
   */
  function ParseInt(s: string): (r: Option<int>)
    ensures r.Some? ==> INT_MIN <= r.value <= INT_MAX
    ensures r.Some? ==> |s| > 0 && AllDigits(if s[0] == '-' || s[0] == '+' then s[1..] else s)
  {
    if |s| == 0 then None
    else
      var negative := s[0] == '-';
      var digits := if s[0] == '-' || s[0] == '+' then s[1..] else s;
      if |digits| == 0 || !AllDigits(digits) then None
      else
        var v: int := if negative then -(DigitsValue(digits) as int) else DigitsValue(digits);
        if INT_MIN <= v <= INT_MAX then Some(v) else None
  }

  /** The decimal digits of n, without leading zeros. */
  function NatDigits(n: nat): (r: string)
    ensures |r| > 0 && AllDigits(r)
    decreases n
  {
    var last := ['0' + (n % 10) as char];
    if n < 10 then last else NatDigits(n / 10) + last
  }

  /** Integer.toString(x): a '-' for negative values, then the digits. */
  function FormatInt(x: int): (text: string)
  {
    if x < 0 then "-" + NatDigits(-x) else NatDigits(x)
  }

  lemma {:induction false} NatDigitsValue(n: nat)
    ensures DigitsValue(NatDigits(n)) == n
    decreases n
  {
    var s := NatDigits(n);
    if n >= 10 {
      NatDigitsValue(n / 10);
      assert s[..|s| - 1] == NatDigits(n / 10);
    }
  }

  /** parseInt reads back every 32-bit value that toString writes. */
  lemma ParseFormat(x: int)
    requires INT_MIN <= x <= INT_MAX
    ensures ParseInt(FormatInt(x)) == Some(x)
  {
    if x < 0 {
      NatDigitsValue(-x);
      assert FormatInt(x)[1..] == NatDigits(-x);
    } else {
      NatDigitsValue(x);
    }
  }

  /** parseInt rejects every value outside the 32-bit range that toString writes. */
  lemma ParseRejectsOutOfRange(x: int)
    requires x < INT_MIN || INT_MAX < x
    ensures ParseInt(FormatInt(x)) == None
  {
    if x < 0 {
      NatDigitsValue(-x);
      assert FormatInt(x)[1..] == NatDigits(-x);
    } else {
      NatDigitsValue(x);
    }
  }

  /** A sign alone, the empty string and a stray letter are rejected; '+' is accepted. */
  lemma ParseSamples()
    ensures ParseInt("-") == None && ParseInt("") == None && ParseInt("1a") == None
    ensures ParseInt("+7") == Some(7)
  {
    assert !IsDigit("1a"[1]);
    assert "+7"[1..] == "7";
    assert DigitsValue("7") == 7 by {
      assert "7"[..0] == "";
    }
  }
}

=== FILE: sessions.dfy ===
/**
 * The session registry of WebSocketFrameHandler: which channels watch which
 * server's log, the chain of messages queued on each channel, the watcher
 * that follows each watched file, and the transitions that change them: the
 * WebSocket handshake, the disconnect of a channel, and the fan-out of what
 * the watcher reads to the server's channels.
 *
 * Each operation is one atomic step. The source's lock covers only the
 * handshake and the disconnect; the fan-out on the watching thread runs
 * without it, and its interleavings are not modelled. The file system is
 * a map from path to contents; the UTF-8 decoding of bytes is a function
 * given by the caller.
 */
module Sessions {
  import opened Common
  import opened FileWatching
  import Query
  import TailReader

  /** A key of the server configuration. */
  type ServerId = string

  /** A Java string: its elements stand for UTF-16 code units. */
  type Text = string

  /** A connected WebSocket channel. */
  datatype Channel = Channel(id: nat)

  /** The handler the watcher holds for a server's file: it fans out to that server's channels. */
  datatype Sender = Sender(serverId: ServerId)

  /** The backlog is sent in pieces of this many characters. */
  const PIECE_SIZE: nat := 1024

  /**
   * How a handshake ends: the channel is closed because the request names no
   * known server or no number (Rejected) or because the backlog could not be
   * produced (Failed); or it is registered (Accepted), with the last, shorter
   * piece of the backlog written to the channel directly when there is one.
   */
  datatype HandshakeOutcome = Rejected | Failed | Accepted(direct: Option<Text>)

  /** The names of the two query parameters of a handshake request. */
  const SERVER_ID_PARAM: string := "serverId"
  const NUMBER_PARAM: string := "number"

  /**
   * What the handshake makes of a request: it is rejected when the query
   * lacks a serverId, names an unknown server or lacks a number; it fails
   * when the number does not parse as an int or when the server's file is
   * missing and lines are asked for; otherwise it is admitted.
   */
  datatype Admission = Reject | Fail | Admit(serverId: ServerId, number: int)

  /**
   * The checks of the handshake, in the order it makes them, for the query of
   * the request URI, the configuration and the files that exist.
   */
  function Classify(query: Option<string>, config: map<ServerId, File>, disk: map<File, seq<bv8>>): (r: Admission)
    ensures var serverId := Query.GetQueryParam(query, SERVER_ID_PARAM);
      var numberStr := Query.GetQueryParam(query, NUMBER_PARAM);
      && (r.Reject? <==> serverId.None? || serverId.value !in config || numberStr.None?)
      && (r.Fail? ==> serverId.Some? && numberStr.Some?)
      && (r.Fail? <==> !r.Reject? && (Query.ParseInt(numberStr.value).None? ||
                                      (Query.ParseInt(numberStr.value).value != 0 && config[serverId.value] !in disk)))
      && (r.Admit? ==> serverId == Some(r.serverId) && r.serverId in config
                       && numberStr.Some? && Query.ParseInt(numberStr.value) == Some(r.number)
                       && (r.number != 0 ==> config[r.serverId] in disk))
  {
    var serverId := Query.GetQueryParam(query, SERVER_ID_PARAM);
    var numberStr := Query.GetQueryParam(query, NUMBER_PARAM);
    if serverId.None? || serverId.value !in config || numberStr.None? then Reject
    else match Query.ParseInt(numberStr.value)
      case None => Fail
      case Some(number) => if number != 0 && config[serverId.value] !in disk then Fail else Admit(serverId.value, number)
  }

  /** The messages chained on channel c so far (none when c has no entry). */
  function Queued(chains: map<Channel, seq<Text>>, c: Channel): (queue: seq<Text>)
  {
    if c in chains then chains[c] else []
  }

  /** The channels watching a server (getOrDefault with the empty set). */
  function Subscribers(sessions: map<ServerId, set<Channel>>, id: ServerId): (subscribers: set<Channel>)
  {
    if id in sessions then sessions[id] else {}
  }

  /** Whether channel c watches some server. */
  ghost predicate Subscribed(sessions: map<ServerId, set<Channel>>, c: Channel)
  {
    exists id :: id in sessions && c in sessions[id]
  }

  /** No two servers are configured with the same file. */
  ghost predicate DistinctPaths(config: map<ServerId, File>)
  {
    forall a, b :: a in config && b in config && a != b ==> config[a] != config[b]
  }

  // ---------------------------------------------------------------------------
  // The backlog in pieces
  // ---------------------------------------------------------------------------

  /** The full pieces of PIECE_SIZE characters at the front of t, in order. */
  function Pieces(t: Text): (pieces: seq<Text>)
    decreases |t|
  {
    if |t| < PIECE_SIZE then [] else [t[..PIECE_SIZE]] + Pieces(t[PIECE_SIZE..])
  }

  /** What is left of t after its full pieces. */
  function Remainder(t: Text): (rest: Text)
    decreases |t|
  {
    if |t| < PIECE_SIZE then t else Remainder(t[PIECE_SIZE..])
  }

  /**
   * The pieces and the remainder give back the backlog, every piece is full,
   * and the remainder is shorter than a piece.
   */
  lemma {:induction false} PiecesMeaning(t: Text)
    ensures Concat(Pieces(t)) + Remainder(t) == t
    ensures forall i :: 0 <= i < |Pieces(t)| ==> |Pieces(t)[i]| == PIECE_SIZE
    ensures |Remainder(t)| < PIECE_SIZE
    decreases |t|
  {
    if |t| >= PIECE_SIZE {
      var rest := t[PIECE_SIZE..];
      PiecesMeaning(rest);
      ConcatPrepend(t[..PIECE_SIZE], Pieces(rest));
      assert t == t[..PIECE_SIZE] + rest;
    }
  }

  /**
   * Any way of writing t as full pieces followed by a shorter remainder is
   * the one Pieces and Remainder give.
   */
  lemma {:induction false} PiecesUnique(pieces: seq<Text>, rest: Text, t: Text)
    requires Concat(pieces) + rest == t
    requires forall i :: 0 <= i < |pieces| ==> |pieces[i]| == PIECE_SIZE
    requires |rest| < PIECE_SIZE
    ensures pieces == Pieces(t) && rest == Remainder(t)
    decreases |pieces|
  {
    if pieces != [] {
      var first, others := pieces[0], pieces[1..];
      assert pieces == [first] + others;
      ConcatPrepend(first, others);
      assert t == first + (Concat(others) + rest);
      assert t[..PIECE_SIZE] == first;
      assert t[PIECE_SIZE..] == Concat(others) + rest;
      PiecesUnique(others, rest, t[PIECE_SIZE..]);
    }
  }

  /**
   * Part way through the backlog loop, after i characters: the pieces sent
   * so far, each full, followed by the builder (shorter than a piece) are
   * the first i characters of the text.
   */
  ghost predicate Gathered(text: Text, i: nat, sent: seq<Text>, builder: Text)
  {
    && i <= |text|
    && Concat(sent) + builder == text[..i]
    && (forall k :: 0 <= k < |sent| ==> |sent[k]| == PIECE_SIZE)
    && |builder| < PIECE_SIZE
  }

  /**
   * Gathering the next character: the builder grows by it, and is sent and
   * emptied once it holds PIECE_SIZE characters.
   */
  lemma GatherStep(text: Text, i: nat, sent: seq<Text>, builder: Text)
    requires Gathered(text, i, sent, builder) && i < |text|
    ensures var next := builder + [text[i]];
      if |next| >= PIECE_SIZE then Gathered(text, i + 1, sent + [next], [])
      else Gathered(text, i + 1, sent, next)
  {
    var next := builder + [text[i]];
    assert text[..i + 1] == text[..i] + [text[i]];
    assert Concat(sent) + next == text[..i + 1];
    if |next| >= PIECE_SIZE {
      ConcatAppend(sent, next);
    }
  }

  // ---------------------------------------------------------------------------
  // Disconnect and fan-out, on values
  // ---------------------------------------------------------------------------

  /**
   * The registry after channel c leaves: c is taken out of every set, and a
   * server whose set becomes empty loses its entry.
   */
  function Unsubscribe(sessions: map<ServerId, set<Channel>>, c: Channel): (left: map<ServerId, set<Channel>>)
  {
    map id | id in sessions && sessions[id] - {c} != {} :: sessions[id] - {c}
  }

  /**
   * After Unsubscribe, c watches nothing, no set is empty, every other
   * channel watches exactly what it watched before, and a server keeps its
   * entry exactly when some other channel still watches it.
   */
  lemma UnsubscribeMeaning(sessions: map<ServerId, set<Channel>>, c: Channel)
    ensures !Subscribed(Unsubscribe(sessions, c), c)
    ensures forall id :: id in Unsubscribe(sessions, c) ==> Unsubscribe(sessions, c)[id] != {}
    ensures forall id, d :: d != c ==>
      (d in Subscribers(Unsubscribe(sessions, c), id) <==> d in Subscribers(sessions, id))
    ensures forall id :: id in Unsubscribe(sessions, c) <==> id in sessions && sessions[id] - {c} != {}
  {
    var after := Unsubscribe(sessions, c);
    forall id, d | d != c
      ensures d in Subscribers(after, id) <==> d in Subscribers(sessions, id)
    {
      if d in Subscribers(sessions, id) {
        assert d in sessions[id] - {c};
      }
    }
  }

  /**
   * The messages a run of chunks produces: each chunk decoded, the empty
   * results left out.
   */
  function Messages(chunks: seq<seq<bv8>>, decode: seq<bv8> -> Text): (r: seq<Text>)
    ensures |r| <= |chunks|
    ensures forall i :: 0 <= i < |r| ==> r[i] != []
    decreases |chunks|
  {
    if chunks == [] then []
    else
      var message := decode(chunks[|chunks| - 1]);
      Messages(chunks[..|chunks| - 1], decode) + (if message == [] then [] else [message])
  }

  lemma MessagesAppend(chunks: seq<seq<bv8>>, chunk: seq<bv8>, decode: seq<bv8> -> Text)
    ensures Messages(chunks + [chunk], decode) == Messages(chunks, decode) + Messages([chunk], decode)
  {
    assert (chunks + [chunk])[..|chunks|] == chunks;
    assert [chunk][..0] == [];
  }

  /**
   * The chains after messages have been sent, in order, to every channel in
   * subscribers: those channels' chains grow by messages, the others stay as
   * they were.
   */
  function Broadcast(chains: map<Channel, seq<Text>>, subscribers: set<Channel>, messages: seq<Text>): (r: map<Channel, seq<Text>>)
    ensures forall c :: c in subscribers ==> Queued(r, c) == Queued(chains, c) + messages
    ensures forall c :: c !in subscribers ==> Queued(r, c) == Queued(chains, c)
    ensures messages == [] ==> r == chains
    ensures messages != [] ==> r.Keys == chains.Keys + subscribers
  {
    if messages == [] then chains
    else map c | c in chains.Keys + subscribers :: if c in subscribers then Queued(chains, c) + messages else chains[c]
  }

  /** Sending one more message to a single further channel. */
  lemma BroadcastOneMore(chains: map<Channel, seq<Text>>, done: set<Channel>, c: Channel, message: Text)
    requires c !in done
    ensures Broadcast(chains, done + {c}, [message]) ==
      Broadcast(chains, done, [message])[c := Queued(chains, c) + [message]]
  {
  }

  /** Broadcasting one message to a single channel appends it to that channel's chain. */
  lemma BroadcastToOne(chains: map<Channel, seq<Text>>, c: Channel, message: Text)
    ensures Broadcast(chains, {c}, [message]) == chains[c := Queued(chains, c) + [message]]
  {
    var r := Broadcast(chains, {c}, [message]);
    assert r.Keys == chains.Keys + {c};
  }

  /** Sending a single channel one more message after the ones already broadcast to it. */
  lemma BroadcastOneMessageMore(chains: map<Channel, seq<Text>>, c: Channel, sent: seq<Text>, message: Text)
    ensures Broadcast(chains, {c}, sent + [message]) ==
      var before := Broadcast(chains, {c}, sent);
      before[c := Queued(before, c) + [message]]
  {
    BroadcastToOne(Broadcast(chains, {c}, sent), c, message);
    BroadcastTwice(chains, {c}, sent, [message]);
  }

  /** Broadcasting two runs of messages one after the other is broadcasting both. */
  lemma BroadcastTwice(chains: map<Channel, seq<Text>>, subscribers: set<Channel>, first: seq<Text>, second: seq<Text>)
    ensures Broadcast(Broadcast(chains, subscribers, first), subscribers, second) ==
      Broadcast(chains, subscribers, first + second)
  {
    if first == [] {
      assert first + second == second;
    } else if second == [] {
      assert first + second == first;
    } else {
      BroadcastBothNonEmpty(chains, subscribers, first, second);
    }
  }

  lemma BroadcastBothNonEmpty(chains: map<Channel, seq<Text>>, subscribers: set<Channel>, first: seq<Text>, second: seq<Text>)
    requires first != [] && second != []
    ensures Broadcast(Broadcast(chains, subscribers, first), subscribers, second) ==
      Broadcast(chains, subscribers, first + second)
  {
    var twice := Broadcast(Broadcast(chains, subscribers, first), subscribers, second);
    var both := Broadcast(chains, subscribers, first + second);
    assert twice.Keys == both.Keys;
    forall c
      ensures Queued(twice, c) == Queued(both, c)
    {
      QueuedTwice(chains, subscribers, first, second, c);
    }
    SameQueues(twice, both);
  }

  lemma QueuedTwice(chains: map<Channel, seq<Text>>, subscribers: set<Channel>, first: seq<Text>, second: seq<Text>, c: Channel)
    ensures Queued(Broadcast(Broadcast(chains, subscribers, first), subscribers, second), c) ==
      Queued(Broadcast(chains, subscribers, first + second), c)
  {
    if c in subscribers {
      assert (Queued(chains, c) + first) + second == Queued(chains, c) + (first + second);
    }
  }

  /** Two chain maps with the same channels and the same queue on each are equal. */
  lemma SameQueues(a: map<Channel, seq<Text>>, b: map<Channel, seq<Text>>)
    requires a.Keys == b.Keys
    requires forall c :: Queued(a, c) == Queued(b, c)
    ensures a == b
  {
    forall c | c in a
      ensures a[c] == b[c]
    {
      assert Queued(a, c) == Queued(b, c);
    }
  }

  // ---------------------------------------------------------------------------
  // The handler
  // ---------------------------------------------------------------------------

  class WebSocketFrameHandler {
    /** The configuration: the file of each server. */
    const serverFilePath: map<ServerId, File>
    const watcher: FileWatcher<Sender>
    /** The channels watching each server. */
    var sessions: map<ServerId, set<Channel>>
    /**
     * Per channel, the messages sent through sendMessage, in the order they
     * are written; a channel has an entry once it has a stored future.
     */
    var lastFuture: map<Channel, seq<Text>>
    /** The channels that carry the WebSocket attribute. */
    var flagged: set<Channel>

    /**
     * A server has an entry only with a non-empty set of channels, and its
     * file is watched exactly then, with a Sender for that server; the
     * watcher follows no other file; only watching channels have a last
     * future, and they all carry the attribute.
     */
    ghost predicate Valid()
      reads this, watcher
    {
      WatchersMatch() && Attached(sessions, lastFuture, flagged)
    }

    /** The part of Valid that ties the server entries to the watcher. */
    ghost predicate WatchersMatch()
      reads this`sessions, watcher
    {
      watcher.Valid() && Matches(serverFilePath, sessions, watcher.threads, watcher.handlers)
    }

    constructor (serverFilePath: map<ServerId, File>)
      requires DistinctPaths(serverFilePath)
      ensures Valid() && fresh(watcher)
      ensures this.serverFilePath == serverFilePath
      ensures sessions == map[] && lastFuture == map[] && flagged == {}
    {
      this.serverFilePath := serverFilePath;
      watcher := new FileWatcher();
      sessions := map[];
      lastFuture := map[];
      flagged := {};
    }

    /**
     * Sends message on channel. With no stored future it is written at once
     * and that write's future is stored; otherwise it is hung as a listener
     * on the stored future, which addListener gives back unchanged, so the
     * first write's future stays stored. The message joins the end of the
     * channel's queue of writes.
     */
    method SendMessage(channel: Channel, message: Text)
      modifies this
      ensures lastFuture == old(lastFuture)[channel := Queued(old(lastFuture), channel) + [message]]
      ensures sessions == old(sessions) && flagged == old(flagged)
    {
      var future := Queued(lastFuture, channel);
      lastFuture := lastFuture[channel := future + [message]];
    }

    /**
     * The backlog loop of the handshake: characters are gathered until a
     * piece is full, and each full piece is sent; what is left is returned
     * to be written directly, when it is not empty.
     */
    method SendBacklog(channel: Channel, text: Text) returns (direct: Option<Text>)
      modifies this
      ensures sessions == old(sessions) && flagged == old(flagged)
      ensures lastFuture == Broadcast(old(lastFuture), {channel}, Pieces(text))
      ensures direct == if Remainder(text) == [] then None else Some(Remainder(text))
    {
      var builder: Text := [];
      ghost var sent: seq<Text> := [];
      var i := 0;
      while i < |text|
        invariant Gathered(text, i, sent, builder)
        invariant sessions == old(sessions) && flagged == old(flagged)
        invariant lastFuture == Broadcast(old(lastFuture), {channel}, sent)
      {
        GatherStep(text, i, sent, builder);
        builder := builder + [text[i]];
        if |builder| >= PIECE_SIZE {
          BroadcastOneMessageMore(old(lastFuture), channel, sent, builder);
          SendMessage(channel, builder);
          sent := sent + [builder];
          builder := [];
        }
        i := i + 1;
      }
      assert text[..|text|] == text;
      PiecesUnique(sent, builder, text);
      direct := if builder != [] then Some(builder) else None;
    }

    /**
     * Makes sure the server's file is watched: a Sender for the server is
     * registered only when no thread watches the file yet; an existing
     * registration is kept as it is.
     */
    method CreateWatcher(serverId: ServerId, fileNow: seq<bv8>)
      requires serverId in serverFilePath && watcher.Valid()
      modifies watcher
      ensures watcher.Valid() && watcher.Contains(serverFilePath[serverId])
      ensures var path := serverFilePath[serverId];
        && (path in old(watcher.threads) ==>
              watcher.threads == old(watcher.threads) && watcher.handlers == old(watcher.handlers))
        && (path !in old(watcher.threads) ==>
              && watcher.handlers == old(watcher.handlers)[path := Sender(serverId)]
              && watcher.threads == old(watcher.threads)[path := watcher.threads[path]]
              && fresh(watcher.threads[path])
              && watcher.threads[path].Tracks(fileNow)
              && watcher.threads[path].position == |fileNow|)
    {
      var path := serverFilePath[serverId];
      if !watcher.Contains(path) {
        watcher.AddListener(path, Sender(serverId), fileNow);
      }
    }

    /**
     * The handshake branch of userEventTriggered, for a request whose URI has
     * the query given (None: no query), with the files as they are now (a
     * missing path cannot be opened) and the decoding of the backlog bytes.
     * A rejected request changes nothing; a failed one only gives the channel
     * the attribute; an accepted one registers the channel (see Register).
     */
    method Handshake(channel: Channel, query: Option<string>, disk: map<File, seq<bv8>>,
                     decode: seq<bv8> -> Text) returns (outcome: HandshakeOutcome)
      requires Valid()
      modifies this, watcher
      ensures Valid()
      ensures var a := Classify(query, serverFilePath, disk);
        && (outcome.Rejected? <==> a.Reject?)
        && (outcome.Failed? <==> a.Fail?)
        && (a.Reject? ==> flagged == old(flagged))
        && (!a.Reject? ==> flagged == old(flagged) + {channel})
        && (!outcome.Accepted? ==>
              && sessions == old(sessions) && lastFuture == old(lastFuture)
              && watcher.threads == old(watcher.threads) && watcher.handlers == old(watcher.handlers))
        && (a.Admit? ==>
              var path := serverFilePath[a.serverId];
              var backlog := decode(TailReader.TailOf(if path in disk then disk[path] else [], a.number));
              && sessions == old(sessions)[a.serverId := Subscribers(old(sessions), a.serverId) + {channel}]
              && lastFuture == Broadcast(old(lastFuture), {channel}, Pieces(backlog))
              && outcome.direct == (if Remainder(backlog) == [] then None else Some(Remainder(backlog)))
              && watcher.Contains(path))
    {
      match Classify(query, serverFilePath, disk) {
        case Reject =>
          return Rejected;
        case Fail =>
          MarkChannel(channel);
          return Failed;
        case Admit(id, number) =>
          var path := serverFilePath[id];
          var content := if path in disk then disk[path] else [];
          var direct := Register(channel, id, number, content, decode);
          outcome := Accepted(direct);
      }
    }

    /** Gives channel the WebSocket attribute, as every handshake that is not rejected does. */
    method MarkChannel(channel: Channel)
      requires Valid()
      modifies this
      ensures Valid()
      ensures flagged == old(flagged) + {channel}
      ensures sessions == old(sessions) && lastFuture == old(lastFuture)
    {
      AttachedMoreFlags(sessions, lastFuture, flagged, channel);
      flagged := flagged + {channel};
    }

    /**
     * The successful part of the handshake for serverId, whose file holds
     * content: the last number lines are sent in full pieces (the rest
     * returned to be written directly), the file is watched, the channel
     * joins the server's set, and the channel gets the attribute.
     */
    method Register(channel: Channel, serverId: ServerId, number: int, content: seq<bv8>,
                    decode: seq<bv8> -> Text) returns (direct: Option<Text>)
      requires Valid() && serverId in serverFilePath
      modifies this, watcher
      ensures Valid()
      ensures flagged == old(flagged) + {channel}
      ensures var backlog := decode(TailReader.TailOf(content, number));
        && sessions == old(sessions)[serverId := Subscribers(old(sessions), serverId) + {channel}]
        && lastFuture == Broadcast(old(lastFuture), {channel}, Pieces(backlog))
        && direct == (if Remainder(backlog) == [] then None else Some(Remainder(backlog)))
      ensures var path := serverFilePath[serverId];
        && watcher.Contains(path)
        && (path in old(watcher.threads) ==>
              watcher.threads == old(watcher.threads) && watcher.handlers == old(watcher.handlers))
        && (path !in old(watcher.threads) ==>
              && watcher.handlers == old(watcher.handlers)[path := Sender(serverId)]
              && watcher.threads == old(watcher.threads)[path := watcher.threads[path]]
              && fresh(watcher.threads[path])
              && watcher.threads[path].Tracks(content)
              && watcher.threads[path].position == |content|)
    {
      var bytes := TailReader.ReadLastNLines(content, number);
      direct := SendBacklog(channel, decode(bytes));
      AttachedAfterJoin(sessions, old(lastFuture), flagged, serverId, channel, Pieces(decode(bytes)));
      CreateWatcher(serverId, content);
      MatchesAfterJoin(serverFilePath, sessions, old(watcher.threads), old(watcher.handlers), serverId, channel,
                       watcher.threads[serverFilePath[serverId]]);
      sessions := sessions[serverId := Subscribers(sessions, serverId) + {channel}];
      flagged := flagged + {channel};
    }

    /**
     * channelInactive: for a channel carrying the attribute, every server set
     * holding it loses it, its last future is dropped, and a server whose set
     * becomes empty loses its entry and its file's watcher. Nothing changes
     * for a channel without the attribute.
     */
    method ChannelInactive(channel: Channel)
      requires Valid()
      modifies this, watcher
      ensures Valid()
      ensures flagged == old(flagged)
      ensures channel !in old(flagged) ==>
        && sessions == old(sessions) && lastFuture == old(lastFuture)
        && watcher.threads == old(watcher.threads) && watcher.handlers == old(watcher.handlers)
      ensures channel in old(flagged) ==>
        && sessions == Unsubscribe(old(sessions), channel)
        && lastFuture == old(lastFuture) - {channel}
        && (forall id :: id in old(sessions) && id !in sessions ==> serverFilePath[id] !in watcher.threads)
        && (Submap(watcher.threads, old(watcher.threads)) && Submap(watcher.handlers, old(watcher.handlers)))
    {
      if channel !in flagged {
        return;
      }
      AttachedAfterLeave(sessions, lastFuture, flagged, channel);
      LeaveAll(channel);
    }

    /** The iterator loop of channelInactive, over a snapshot of the server entries. */
    method LeaveAll(channel: Channel)
      requires WatchersMatch()
      requires forall c :: c in lastFuture ==> Subscribed(sessions, c)
      modifies this, watcher
      ensures WatchersMatch()
      ensures flagged == old(flagged)
      ensures sessions == Unsubscribe(old(sessions), channel)
      ensures lastFuture == old(lastFuture) - {channel}
      ensures Submap(watcher.threads, old(watcher.threads)) && Submap(watcher.handlers, old(watcher.handlers))
    {
      ghost var start := sessions;
      ghost var futures := lastFuture;
      ghost var left := false;
      var todo := sessions.Keys;
      while todo != {}
        invariant Leaving(start, todo, channel, sessions)
        invariant !left ==> lastFuture == futures && Untouched(start, todo, channel)
        invariant left ==> lastFuture == futures - {channel}
        invariant flagged == old(flagged)
        invariant WatchersMatch()
        invariant Submap(watcher.threads, old(watcher.threads)) && Submap(watcher.handlers, old(watcher.handlers))
        decreases |todo|
      {
        var id :| id in todo;
        ghost var before := sessions;
        ghost var threads, handlers := watcher.threads, watcher.handlers;
        MatchesAfterLeave(serverFilePath, sessions, threads, handlers, id, channel);
        LeaveServer(channel, id);
        LeavingStep(start, todo, channel, id, before);
        SubmapRemove(threads, serverFilePath[id]);
        SubmapRemove(handlers, serverFilePath[id]);
        SubmapTransitive(watcher.threads, threads, old(watcher.threads));
        SubmapTransitive(watcher.handlers, handlers, old(watcher.handlers));
        if channel in before[id] {
          if left {
            RemoveTwice(futures, channel);
          }
          left := true;
        }
        RemoveShrinks(todo, id);
        todo := todo - {id};
      }
      LeavingDone(start, channel, sessions);
      if !left {
        UntouchedAll(start, channel);
        RemoveAbsent(futures, channel);
      }
    }

    /**
     * One turn of the iterator loop of channelInactive, on the entry of
     * serverId: when its set holds channel, the channel leaves the set and
     * loses its last future, and an emptied set takes the entry and the
     * watcher of the server's file with it.
     */
    method LeaveServer(channel: Channel, serverId: ServerId)
      requires serverId in sessions && serverId in serverFilePath && watcher.Valid()
      modifies this, watcher
      ensures watcher.Valid()
      ensures flagged == old(flagged)
      ensures sessions == LeaveEntry(old(sessions), serverId, channel)
      ensures lastFuture == if channel in old(sessions)[serverId] then old(lastFuture) - {channel} else old(lastFuture)
      ensures var path := serverFilePath[serverId];
        if serverId in sessions then watcher.threads == old(watcher.threads) && watcher.handlers == old(watcher.handlers)
        else watcher.threads == old(watcher.threads) - {path} && watcher.handlers == old(watcher.handlers) - {path}
    {
      var watching := sessions[serverId];
      if channel in watching {
        var after := LeaveEntry(sessions, serverId, channel);
        lastFuture := lastFuture - {channel};
        sessions := after;
        if serverId !in after {
          watcher.Remove(serverFilePath[serverId]);
        }
      }
    }

    /**
     * Sender.handle for serverId: the chunk is decoded, and a non-empty
     * message is sent to every channel watching the server (to none when the
     * server has no entry).
     */
    method SenderHandle(serverId: ServerId, buffer: seq<bv8>, decode: seq<bv8> -> Text)
      modifies this
      ensures sessions == old(sessions) && flagged == old(flagged)
      ensures lastFuture == Broadcast(old(lastFuture), Subscribers(sessions, serverId), Messages([buffer], decode))
    {
      var message := decode(buffer);
      assert [buffer][..0] == [];
      assert Messages([buffer], decode) == if message == [] then [] else [message];
      if message == [] {
        return;
      }
      var subscribers := Subscribers(sessions, serverId);
      var todo := subscribers;
      while todo != {}
        invariant todo <= subscribers
        invariant sessions == old(sessions) && flagged == old(flagged)
        invariant lastFuture == Broadcast(old(lastFuture), subscribers - todo, [message])
        decreases |todo|
      {
        var c :| c in todo;
        ghost var done := subscribers - todo;
        BroadcastOneMore(old(lastFuture), done, c, message);
        assert Queued(lastFuture, c) == Queued(old(lastFuture), c);
        SendMessage(c, message);
        assert lastFuture == Broadcast(old(lastFuture), done + {c}, [message]);
        todo := todo - {c};
        assert subscribers - todo == done + {c};
      }
      assert subscribers - todo == subscribers;
    }

    /**
     * One turn of the thread watching path, whose file now holds content:
     * everything appended since the last turn is read, and every non-empty
     * decoded chunk is sent, in order, to each channel watching the server
     * that owns the file.
     */
    method Poll(path: File, content: seq<bv8>, decode: seq<bv8> -> Text) returns (chunks: seq<seq<bv8>>)
      requires Valid() && path in watcher.threads
      modifies this, watcher.threads[path]
      ensures Valid()
      ensures sessions == old(sessions) && flagged == old(flagged)
      ensures var loader := watcher.threads[path];
        old(loader.position) <= |content| ==>
          Concat(chunks) == content[old(loader.position)..] && loader.position == |content|
      ensures var loader := watcher.threads[path];
        old(loader.position) >= |content| ==>
          chunks == [] && lastFuture == old(lastFuture) && loader.position == old(loader.position)
      ensures var serverId := watcher.handlers[path].serverId;
        && serverId in sessions && serverFilePath[serverId] == path
        && lastFuture == Broadcast(old(lastFuture), sessions[serverId], Messages(chunks, decode))
    {
      ghost var owner :| owner in serverFilePath && serverFilePath[owner] == path;
      assert watcher.threads[path].bufferSize > 0;
      var handler;
      chunks, handler := watcher.PollOnce(path, content);
      match handler {
        case Some(sender) =>
          HandleAll(sender.serverId, chunks, decode);
        case None =>
      }
      AttachedAfterBroadcast(sessions, old(lastFuture), flagged, owner, Messages(chunks, decode));
    }

    /**
     * The drain loop's hand-over for the thread of serverId's file: each
     * chunk read goes, in order, to Sender.handle.
     */
    method HandleAll(serverId: ServerId, chunks: seq<seq<bv8>>, decode: seq<bv8> -> Text)
      modifies this
      ensures sessions == old(sessions) && flagged == old(flagged)
      ensures lastFuture == Broadcast(old(lastFuture), Subscribers(sessions, serverId), Messages(chunks, decode))
    {
      var subscribers := Subscribers(sessions, serverId);
      var i := 0;
      while i < |chunks|
        invariant 0 <= i <= |chunks|
        invariant sessions == old(sessions) && flagged == old(flagged)
        invariant lastFuture == Broadcast(old(lastFuture), subscribers, Messages(chunks[..i], decode))
      {
        SenderHandle(serverId, chunks[i], decode);
        MessagesAppend(chunks[..i], chunks[i], decode);
        assert chunks[..i + 1] == chunks[..i] + [chunks[i]];
        BroadcastTwice(old(lastFuture), subscribers, Messages(chunks[..i], decode), Messages([chunks[i]], decode));
        i := i + 1;
      }
      assert chunks[..|chunks|] == chunks;
    }
  }

  /**
   * The server entries agree with the watcher's maps: a server has an entry
   * only with a non-empty set of channels, and its file is watched exactly
   * then, with a Sender for that server; the watcher follows no other file.
   */
  ghost predicate Matches(config: map<ServerId, File>, sessions: map<ServerId, set<Channel>>,
                          threads: map<File, FileChangeLoader>, handlers: map<File, Sender>)
  {
    && DistinctPaths(config)
    && (forall id :: id in sessions ==> id in config && sessions[id] != {})
    && (forall id :: id in config ==> (config[id] in threads <==> id in sessions))
    && (forall p :: p in threads ==> p in config.Values)
    && (forall id :: id in sessions ==> config[id] in handlers && handlers[config[id]] == Sender(id))
  }

  /** Taking a channel out of one entry, and the file's watcher with an emptied entry, keeps the match. */
  lemma MatchesAfterLeave(config: map<ServerId, File>, sessions: map<ServerId, set<Channel>>,
                          threads: map<File, FileChangeLoader>, handlers: map<File, Sender>,
                          serverId: ServerId, c: Channel)
    requires Matches(config, sessions, threads, handlers) && serverId in sessions
    ensures var after := LeaveEntry(sessions, serverId, c);
      var path := config[serverId];
      if serverId in after then Matches(config, after, threads, handlers)
      else Matches(config, after, threads - {path}, handlers - {path})
  {
  }

  /**
   * Half of the handler's invariant: the channels with a last future all
   * watch some server, and every watching channel carries the attribute.
   */
  ghost predicate Attached(sessions: map<ServerId, set<Channel>>, lastFuture: map<Channel, seq<Text>>, flagged: set<Channel>)
  {
    && (forall c :: c in lastFuture ==> Subscribed(sessions, c))
    && (forall id, c :: id in sessions && c in sessions[id] ==> c in flagged)
  }

  /** Giving one more channel the attribute keeps the registry attached. */
  lemma AttachedMoreFlags(sessions: map<ServerId, set<Channel>>, lastFuture: map<Channel, seq<Text>>,
                          flagged: set<Channel>, c: Channel)
    requires Attached(sessions, lastFuture, flagged)
    ensures Attached(sessions, lastFuture, flagged + {c})
  {
  }

  /** A channel that joins a server, is sent messages and gets the attribute keeps the registry attached. */
  lemma AttachedAfterJoin(sessions: map<ServerId, set<Channel>>, lastFuture: map<Channel, seq<Text>>,
                          flagged: set<Channel>, serverId: ServerId, c: Channel, messages: seq<Text>)
    requires Attached(sessions, lastFuture, flagged)
    ensures Attached(sessions[serverId := Subscribers(sessions, serverId) + {c}],
                     Broadcast(lastFuture, {c}, messages), flagged + {c})
  {
    var after := sessions[serverId := Subscribers(sessions, serverId) + {c}];
    forall d | d in Broadcast(lastFuture, {c}, messages)
      ensures Subscribed(after, d)
    {
      if d != c {
        var id :| id in sessions && d in sessions[id];
        assert d in after[id];
      } else {
        assert d in after[serverId];
      }
    }
  }

  /** Broadcasting to a server's channels keeps the registry attached. */
  lemma AttachedAfterBroadcast(sessions: map<ServerId, set<Channel>>, lastFuture: map<Channel, seq<Text>>,
                               flagged: set<Channel>, serverId: ServerId, messages: seq<Text>)
    requires Attached(sessions, lastFuture, flagged)
    ensures Attached(sessions, Broadcast(lastFuture, Subscribers(sessions, serverId), messages), flagged)
  {
    forall d | d in Broadcast(lastFuture, Subscribers(sessions, serverId), messages)
      ensures Subscribed(sessions, d)
    {
      if d !in lastFuture {
        assert d in sessions[serverId];
      }
    }
  }

  /** A channel that leaves every server and loses its last future keeps the registry attached. */
  lemma AttachedAfterLeave(sessions: map<ServerId, set<Channel>>, lastFuture: map<Channel, seq<Text>>,
                           flagged: set<Channel>, c: Channel)
    requires Attached(sessions, lastFuture, flagged)
    ensures Attached(Unsubscribe(sessions, c), lastFuture - {c}, flagged)
  {
    var after := Unsubscribe(sessions, c);
    UnsubscribeMeaning(sessions, c);
    forall id, d | id in after && d in after[id]
      ensures d in flagged
    {
      assert d in Subscribers(sessions, id);
    }
    forall d | d in lastFuture - {c}
      ensures Subscribed(after, d)
    {
      var id :| id in sessions && d in sessions[id];
      assert d in Subscribers(after, id);
    }
  }

  /** A channel joining serverId, whose file gets a watcher if it had none, keeps the match. */
  lemma MatchesAfterJoin(config: map<ServerId, File>, sessions: map<ServerId, set<Channel>>,
                         threads: map<File, FileChangeLoader>, handlers: map<File, Sender>,
                         serverId: ServerId, c: Channel, loader: FileChangeLoader)
    requires Matches(config, sessions, threads, handlers) && serverId in config
    ensures var after := sessions[serverId := Subscribers(sessions, serverId) + {c}];
      var path := config[serverId];
      && (path in threads ==> Matches(config, after, threads, handlers))
      && (path !in threads ==> Matches(config, after, threads[path := loader], handlers[path := Sender(serverId)]))
  {
    var after := sessions[serverId := Subscribers(sessions, serverId) + {c}];
    var path := config[serverId];
    if path !in threads {
      var threads', handlers' := threads[path := loader], handlers[path := Sender(serverId)];
      forall id | id in config && id != serverId
        ensures (config[id] in threads' <==> id in after)
        ensures id in after ==> config[id] in handlers' && handlers'[config[id]] == Sender(id)
      {
        assert config[id] != path;
      }
      assert path in config.Values;
    }
  }

  /**
   * The registry after serverId's entry alone has lost channel c: other
   * entries are as they were, and serverId keeps an entry, without c, exactly
   * when its set held another channel.
   */
  function LeaveEntry(sessions: map<ServerId, set<Channel>>, serverId: ServerId, c: Channel): (r: map<ServerId, set<Channel>>)
    requires serverId in sessions
    ensures forall id :: id != serverId ==>
      (id in r <==> id in sessions) && (id in r ==> r[id] == sessions[id])
    ensures serverId in r <==> c !in sessions[serverId] || sessions[serverId] - {c} != {}
    ensures serverId in r ==> r[serverId] == sessions[serverId] - {c}
  {
    var watching := sessions[serverId];
    if c !in watching then sessions
    else if watching - {c} == {} then sessions - {serverId}
    else sessions[serverId := watching - {c}]
  }

  /**
   * Part way through the disconnect of c, from the snapshot start: the
   * entries still to visit (todo) are untouched, and every visited entry is
   * what Unsubscribe makes of it.
   */
  ghost predicate Leaving(start: map<ServerId, set<Channel>>, todo: set<ServerId>, c: Channel,
                          sessions: map<ServerId, set<Channel>>)
  {
    && todo <= start.Keys
    && (forall id :: id in sessions ==> id in start)
    && (forall id :: id in todo ==> id in sessions && sessions[id] == start[id])
    && (forall id :: id in start && id !in todo ==> (id in sessions <==> start[id] - {c} != {}))
    && (forall id :: id in sessions && id !in todo ==> sessions[id] == start[id] - {c})
  }

  /** No visited entry of the snapshot held c. */
  ghost predicate Untouched(start: map<ServerId, set<Channel>>, todo: set<ServerId>, c: Channel)
  {
    forall id :: id in start && id !in todo ==> c !in start[id]
  }

  lemma LeavingStep(start: map<ServerId, set<Channel>>, todo: set<ServerId>, c: Channel, serverId: ServerId,
                    before: map<ServerId, set<Channel>>)
    requires Leaving(start, todo, c, before) && serverId in todo && before[serverId] != {}
    ensures Leaving(start, todo - {serverId}, c, LeaveEntry(before, serverId, c))
    ensures before[serverId] == start[serverId]
    ensures Untouched(start, todo, c) && c !in start[serverId] ==> Untouched(start, todo - {serverId}, c)
  {
  }

  lemma RemoveTwice<K, V>(m: map<K, V>, k: K)
    ensures (m - {k}) - {k} == m - {k}
  {
  }

  lemma RemoveAbsent<K, V>(m: map<K, V>, k: K)
    requires k !in m
    ensures m - {k} == m
  {
  }

  /** Once every entry has been visited, the registry is what Unsubscribe makes of the snapshot. */
  lemma LeavingDone(start: map<ServerId, set<Channel>>, c: Channel, sessions: map<ServerId, set<Channel>>)
    requires Leaving(start, {}, c, sessions)
    ensures sessions == Unsubscribe(start, c)
  {
    assert sessions.Keys == Unsubscribe(start, c).Keys;
  }

  /** A channel that no entry of the snapshot held watched nothing. */
  lemma UntouchedAll(start: map<ServerId, set<Channel>>, c: Channel)
    requires Untouched(start, {}, c)
    ensures !Subscribed(start, c)
  {
  }
}

=== FILE: tail_reader.dfy ===
/**
 * The backward tail scan of TailReader: the last n lines of a file, read from
 * its end in chunks of BUFFER_SIZE bytes, scanned byte by byte towards the
 * front and collected in reverse, then put back in file order in place.
 *
 * The file is its content, a sequence of bytes; the result is kept as bytes
 * (the final UTF-8 decoding is not part of this model).
 */
module TailReader {
  import opened Common

  /** Size of each backward read. */
  const BUFFER_SIZE: nat := 128

  /** The byte '\n'. */
  const NEWLINE: bv8 := 10

  // ---------------------------------------------------------------------------
  // Counting lines and the intended meaning of "the last n lines"
  // ---------------------------------------------------------------------------

  /** Number of '\n' bytes in s. */
  function CountNewlines(s: seq<bv8>): (count: nat)
    decreases |s|
  {
    if s == [] then 0
    else CountNewlines(s[..|s| - 1]) + (if s[|s| - 1] == NEWLINE then 1 else 0)
  }

  lemma {:induction false} CountNewlinesAppend(a: seq<bv8>, b: seq<bv8>)
    ensures CountNewlines(a + b) == CountNewlines(a) + CountNewlines(b)
    decreases |b|
  {
    if b == [] {
      assert a + b == a;
    } else {
      assert (a + b)[..|a + b| - 1] == a + b[..|b| - 1];
      CountNewlinesAppend(a, b[..|b| - 1]);
    }
  }

  /** Splitting s at i splits its newline count. */
  lemma CountNewlinesSplit(s: seq<bv8>, i: nat)
    requires i <= |s|
    ensures CountNewlines(s) == CountNewlines(s[..i]) + CountNewlines(s[i..])
  {
    assert s == s[..i] + s[i..];
    CountNewlinesAppend(s[..i], s[i..]);
  }

  /**
   * k is where the last m lines of s start (m >= 1): either s holds fewer than
   * m newlines and k is 0, or s[k-1] is the m-th newline counted from the end,
   * so that s[k..] holds exactly m - 1 of them.
   */
  ghost predicate LastLinesStart(s: seq<bv8>, m: int, k: int)
  {
    0 <= k <= |s| &&
    ((k == 0 && CountNewlines(s) < m) ||
     (k > 0 && s[k - 1] == NEWLINE && CountNewlines(s[k..]) == m - 1))
  }

  /** r is the last m lines of s: the bytes after the m-th newline from the end, or all of s. */
  ghost predicate IsLastLines(s: seq<bv8>, m: int, r: seq<bv8>)
  {
    exists k :: LastLinesStart(s, m, k) && r == s[k..]
  }

  /**
   * What the code yields when the clamped first read is reached (file longer
   * than BUFFER_SIZE, length not a multiple of it, and c < n newlines from
   * length % BUFFER_SIZE on): the last n - c lines of the first BUFFER_SIZE
   * bytes, then every byte from length % BUFFER_SIZE on.
   */
  ghost predicate IsRescannedTail(file: seq<bv8>, n: int, r: seq<bv8>)
    requires |file| >= BUFFER_SIZE
  {
    exists k :: LastLinesStart(file[..BUFFER_SIZE], n - CountNewlines(file[|file| % BUFFER_SIZE..]), k) &&
                r == file[k..BUFFER_SIZE] + file[|file| % BUFFER_SIZE..]
  }

  /** The last m lines of s are well defined: at most one start satisfies LastLinesStart. */
  lemma LastLinesStartUnique(s: seq<bv8>, m: int, k1: int, k2: int)
    requires LastLinesStart(s, m, k1) && LastLinesStart(s, m, k2)
    ensures k1 == k2
  {
    if k1 < k2 {
      NewlinesBeforeStart(s, m, k1, k2);
    } else if k2 < k1 {
      NewlinesBeforeStart(s, m, k2, k1);
    }
  }

  /** Any earlier start sees the m-th newline from the end too. */
  lemma NewlinesBeforeStart(s: seq<bv8>, m: int, lo: int, hi: int)
    requires 0 <= lo < hi
    requires LastLinesStart(s, m, hi)
    ensures CountNewlines(s[lo..]) >= m
    ensures lo == 0 ==> CountNewlines(s) >= m
  {
    assert s[0..] == s;
    CountNewlinesSplit(s[lo..], hi - 1 - lo);
    assert s[lo..][hi - 1 - lo..] == [s[hi - 1]] + s[hi..];
    CountNewlinesAppend([s[hi - 1]], s[hi..]);
    assert CountNewlines([s[hi - 1]]) == 1;
  }

  // ---------------------------------------------------------------------------
  // Reversal (reverseArray)
  // ---------------------------------------------------------------------------

  function Reverse(s: seq<bv8>): (r: seq<bv8>)
    ensures |r| == |s|
    decreases |s|
  {
    if s == [] then [] else Reverse(s[1..]) + [s[0]]
  }

  lemma {:induction false} ReverseAt(s: seq<bv8>, k: nat)
    requires k < |s|
    ensures Reverse(s)[k] == s[|s| - 1 - k]
    decreases |s|
  {
    if k < |s| - 1 {
      ReverseAt(s[1..], k);
    }
  }

  lemma {:induction false} ReverseAppend(a: seq<bv8>, b: seq<bv8>)
    ensures Reverse(a + b) == Reverse(b) + Reverse(a)
    decreases |a|
  {
    if a == [] {
      assert a + b == b;
    } else {
      assert (a + b)[1..] == a[1..] + b;
      ReverseAppend(a[1..], b);
    }
  }

  /** Reversing twice gives back the original sequence. */
  lemma ReverseInvolution(s: seq<bv8>)
    ensures Reverse(Reverse(s)) == s
  {
    forall k | 0 <= k < |s|
      ensures Reverse(Reverse(s))[k] == s[k]
    {
      ReverseAt(Reverse(s), k);
      ReverseAt(s, |s| - 1 - k);
    }
  }

  /** reverseArray: swaps a[left] and a[right] while the two indices have not met. */
  method ReverseArray(a: array<bv8>)
    modifies a
    ensures a[..] == Reverse(old(a[..]))
  {
    var left := 0;
    var right := a.Length - 1;
    while left < right
      invariant 0 <= left <= a.Length - left
      invariant right == a.Length - 1 - left
      invariant forall k :: 0 <= k < left ==> a[k] == old(a[a.Length - 1 - k])
      invariant forall k :: a.Length - left <= k < a.Length ==> a[k] == old(a[a.Length - 1 - k])
      invariant forall k :: left <= k < a.Length - left ==> a[k] == old(a[k])
    {
      var temp := a[left];
      a[left] := a[right];
      a[right] := temp;
      left := left + 1;
      right := right - 1;
    }
    ghost var before := old(a[..]);
    forall k | 0 <= k < a.Length
      ensures a[..][k] == Reverse(before)[k]
    {
      ReverseAt(before, k);
    }
  }

  // ---------------------------------------------------------------------------
  // The scan, as a function of the file
  // ---------------------------------------------------------------------------

  /** Outcome of scanning one chunk backward: the bytes chunk[from..] were written; the new line count. */
  datatype Scan = Scan(from: nat, lineCount: int)

  /**
   * The inner for-loop over one chunk, from its last byte towards its first:
   * each '\n' bumps the line count, and the newline that brings the count to n
   * stops the scan without being written.
   */
  function ScanBack(chunk: seq<bv8>, lineCount: int, n: int): (s: Scan)
    ensures s.from <= |chunk|
    decreases |chunk|
  {
    if chunk == [] then Scan(0, lineCount)
    else
      var b := chunk[|chunk| - 1];
      if b == NEWLINE && lineCount + 1 >= n then Scan(|chunk|, lineCount + 1)
      else ScanBack(chunk[..|chunk| - 1], if b == NEWLINE then lineCount + 1 else lineCount, n)
  }

  /** position = Math.max(position - BUFFER_SIZE, 0) */
  function Previous(position: nat): (p: nat)
  {
    if position >= BUFFER_SIZE then position - BUFFER_SIZE else 0
  }

  /**
   * What raf.seek(p); raf.read(buf) yields: up to BUFFER_SIZE bytes from p,
   * nothing at end of file (read returns -1).
   */
  function ChunkAt(file: seq<bv8>, p: nat): (chunk: seq<bv8>)
  {
    if p >= |file| then [] else file[p..Min(p + BUFFER_SIZE, |file|)]
  }

  /**
   * The bytes the do/while loop collects from `position` on with `lineCount`
   * lines already counted, in file order. As written, each step reads a whole
   * chunk at the new position; `corrected` instead stops the read at the old
   * position, so that the clamped first chunk is not read twice.
   */
  function ScanFrom(file: seq<bv8>, n: int, position: nat, lineCount: int, corrected: bool): (tail: seq<bv8>)
    requires position <= |file|
    decreases position
  {
    var p := Previous(position);
    var chunk := if corrected then file[p..position] else ChunkAt(file, p);
    var s := ScanBack(chunk, lineCount, n);
    if p != 0 && s.lineCount < n then ScanFrom(file, n, p, s.lineCount, corrected) + chunk[s.from..]
    else chunk[s.from..]
  }

  /** readLastNLines as written, on bytes. */
  function TailOf(file: seq<bv8>, n: int): (tail: seq<bv8>)
  {
    if n == 0 then [] else ScanFrom(file, n, |file|, 0, false)
  }

  /** readLastNLines with each read stopped at the previous position. */
  function TailOfCorrected(file: seq<bv8>, n: int): (tail: seq<bv8>)
  {
    if n == 0 then [] else ScanFrom(file, n, |file|, 0, true)
  }

  // ---------------------------------------------------------------------------
  // readLastNLines
  // ---------------------------------------------------------------------------

  /**
   * readLastNLines, returning the bytes it decodes. Empty when n == 0 or the
   * file is empty; never more than n - 1 newlines. For n > 0: the last n
   * lines when the file length is at most BUFFER_SIZE or a multiple of it, or
   * when the bytes from length % BUFFER_SIZE on hold n newlines; otherwise
   * the clamped first read is scanned again, and the result is the last lines
   * of the first BUFFER_SIZE bytes followed by everything from
   * length % BUFFER_SIZE on. For negative n, what follows the last newline of
   * the last chunk.
   */
  method ReadLastNLines(file: seq<bv8>, n: int) returns (r: seq<bv8>)
    ensures r == TailOf(file, n)
    ensures n == 0 || file == [] ==> r == []
    ensures CountNewlines(r) <= if n > 0 then n - 1 else 0
    ensures n > 0 && (|file| <= BUFFER_SIZE || |file| % BUFFER_SIZE == 0) ==> IsLastLines(file, n, r)
    ensures n > 0 && |file| % BUFFER_SIZE != 0 && CountNewlines(file[|file| % BUFFER_SIZE..]) >= n ==> IsLastLines(file, n, r)
    ensures |file| > BUFFER_SIZE && |file| % BUFFER_SIZE != 0 && CountNewlines(file[|file| % BUFFER_SIZE..]) < n ==>
              IsRescannedTail(file, n, r)
    ensures n < 0 ==> IsLastLines(file[Previous(|file|)..], 1, r)
  {
    if n == 0 {
      return [];
    }
    var out := CollectBackward(file, n);
    var data := new bv8[|out|](k requires 0 <= k < |out| => out[k]);
    assert data[..] == out;
    ReverseArray(data);
    r := data[..];
    TailOfProperties(file, n);
  }

  /**
   * The do/while loop of readLastNLines: reads chunk after chunk backward
   * from the end of the file, collecting the scanned bytes in reverse order
   * into out, until n lines are counted or position 0 is reached.
   */
  method CollectBackward(file: seq<bv8>, n: int) returns (out: seq<bv8>)
    requires n != 0
    ensures Reverse(out) == TailOf(file, n)
  {
    var lineCount := 0;
    var position: nat := |file|;
    out := [];
    var more := true;
    ghost var tail := TailOf(file, n);
    assert Reverse(out) == [];
    while more
      invariant position <= |file|
      invariant more ==> tail == ScanFrom(file, n, position, lineCount, false) + Reverse(out)
      invariant !more ==> tail == Reverse(out)
      decreases position + (if more then 1 else 0)
    {
      ghost var position0, lineCount0, out0 := position, lineCount, out;
      ghost var whole := ScanFrom(file, n, position0, lineCount0, false);
      assert tail == whole + Reverse(out0);
      position := Previous(position);
      var buf := ChunkAt(file, position);
      var index := if |buf| == 0 then -1 else |buf|;
      ghost var s := ScanBack(buf, lineCount, n);
      if index != -1 {
        lineCount, out := ScanChunk(buf, index, lineCount, n, out);
      }
      ReverseAppend(out0, Reverse(buf[s.from..]));
      ReverseInvolution(buf[s.from..]);
      assert Reverse(out) == buf[s.from..] + Reverse(out0);
      more := position != 0 && lineCount < n;
      if more {
        ghost var rest := ScanFrom(file, n, position, lineCount, false);
        assert whole == rest + buf[s.from..];
        AppendAssociative(rest, buf[s.from..], Reverse(out0));
      } else {
        assert whole == buf[s.from..];
      }
    }
  }

  /** Regrouping a concatenation; kept out of the loop body, where the same step is costly to prove. */
  lemma AppendAssociative(a: seq<bv8>, b: seq<bv8>, c: seq<bv8>)
    ensures (a + b) + c == a + (b + c)
  {
  }

  /**
   * The inner for-loop of readLastNLines over the index bytes read into buf:
   * from the last towards the first, writing each to out and counting
   * newlines, until the newline that brings the count to n.
   */
  method ScanChunk(buf: seq<bv8>, index: nat, lineCount0: int, n: int, out0: seq<bv8>)
    returns (lineCount: int, out: seq<bv8>)
    requires index == |buf|
    ensures var s := ScanBack(buf, lineCount0, n);
            lineCount == s.lineCount && out == out0 + Reverse(buf[s.from..])
  {
    ghost var s := ScanBack(buf, lineCount0, n);
    lineCount, out := lineCount0, out0;
    var i := index - 1;
    assert buf[..i + 1] == buf;
    while i >= 0
      invariant -1 <= i < |buf|
      invariant ScanBack(buf[..i + 1], lineCount, n) == s
      invariant out == out0 + Reverse(buf[i + 1..])
    {
      if buf[i] == NEWLINE {
        lineCount := lineCount + 1;
        if lineCount >= n {
          assert s == Scan(i + 1, lineCount);
          break;
        }
      }
      assert buf[i..][1..] == buf[i + 1..];
      out := out + [buf[i]];
      assert buf[..i + 1][..i] == buf[..i];
      i := i - 1;
    }
  }

  /** The promises of readLastNLines, gathered. */
  lemma TailOfProperties(file: seq<bv8>, n: int)
    ensures n == 0 || file == [] ==> TailOf(file, n) == []
    ensures CountNewlines(TailOf(file, n)) <= if n > 0 then n - 1 else 0
    ensures n > 0 && (|file| <= BUFFER_SIZE || |file| % BUFFER_SIZE == 0) ==> IsLastLines(file, n, TailOf(file, n))
    ensures n > 0 && |file| % BUFFER_SIZE != 0 && CountNewlines(file[|file| % BUFFER_SIZE..]) >= n ==> IsLastLines(file, n, TailOf(file, n))
    ensures |file| > BUFFER_SIZE && |file| % BUFFER_SIZE != 0 && CountNewlines(file[|file| % BUFFER_SIZE..]) < n ==>
              IsRescannedTail(file, n, TailOf(file, n))
    ensures n < 0 ==> IsLastLines(file[Previous(|file|)..], 1, TailOf(file, n))
  {
    TailNewlineBound(file, n);
    if n > 0 && (|file| <= BUFFER_SIZE || |file| % BUFFER_SIZE == 0) {
      TailIsLastLinesWhenAligned(file, n);
    }
    if n > 0 && |file| % BUFFER_SIZE != 0 && CountNewlines(file[|file| % BUFFER_SIZE..]) >= n {
      TailIsLastLinesWhenEnoughNewlines(file, n);
    }
    if |file| > BUFFER_SIZE && |file| % BUFFER_SIZE != 0 && CountNewlines(file[|file| % BUFFER_SIZE..]) < n {
      var k := RescannedTail(file, n);
    }
    if n < 0 {
      NegativeCountKeepsLastLineOfChunk(file, n);
    }
  }

  // ---------------------------------------------------------------------------
  // What the scan computes
  // ---------------------------------------------------------------------------

  /**
   * One chunk: with m = max(n - lineCount, 1) newlines still to find, the
   * scan writes the last m lines of the chunk, and counts every newline it
   * passes, the stopping one included.
   */
  lemma {:induction false} ScanBackMeaning(chunk: seq<bv8>, lineCount: int, n: int)
    ensures ScanMeans(chunk, lineCount, n, ScanBack(chunk, lineCount, n))
    decreases |chunk|
  {
    if chunk != [] {
      var b := chunk[|chunk| - 1];
      if b == NEWLINE && lineCount + 1 >= n {
        assert chunk[|chunk|..] == [];
      } else {
        var lc' := if b == NEWLINE then lineCount + 1 else lineCount;
        ScanBackMeaning(chunk[..|chunk| - 1], lc', n);
        ScanMeansStep(chunk[..|chunk| - 1], b, lineCount, n, ScanBack(chunk[..|chunk| - 1], lc', n));
        assert chunk[..|chunk| - 1] + [b] == chunk;
      }
    }
  }

  /**
   * With m = max(n - lineCount, 1) newlines still to find, s starts the last
   * m lines of the chunk and counts every newline the scan passes, the
   * stopping one included.
   */
  ghost predicate ScanMeans(chunk: seq<bv8>, lineCount: int, n: int, s: Scan)
  {
    var m := if n - lineCount >= 1 then n - lineCount else 1;
    LastLinesStart(chunk, m, s.from) &&
    s.lineCount == lineCount + CountNewlines(chunk[s.from..]) + (if s.from > 0 then 1 else 0)
  }

  /** Scanning past a byte b that does not stop the scan keeps ScanMeans for init + [b]. */
  lemma ScanMeansStep(init: seq<bv8>, b: bv8, lineCount: int, n: int, s: Scan)
    requires !(b == NEWLINE && lineCount + 1 >= n)
    requires ScanMeans(init, if b == NEWLINE then lineCount + 1 else lineCount, n, s)
    ensures ScanMeans(init + [b], lineCount, n, s)
  {
    var chunk := init + [b];
    assert chunk[..|init|] == init;
    assert chunk[s.from..] == init[s.from..] + [b];
    CountNewlinesAppend(init[s.from..], [b]);
    CountNewlinesAppend(init, [b]);
    if s.from > 0 {
      assert chunk[s.from - 1] == init[s.from - 1];
    }
  }

  lemma NewlineIsCounted(s: seq<bv8>, i: nat)
    requires i < |s| && s[i] == NEWLINE
    ensures CountNewlines(s) >= 1
  {
    CountNewlinesSplit(s, i + 1);
    assert s[..i + 1][..i] == s[..i];
  }

  /** A chunk without newlines is written whole and leaves the count alone. */
  lemma NoNewlineScan(chunk: seq<bv8>, lineCount: int, n: int)
    requires CountNewlines(chunk) == 0
    ensures ScanBack(chunk, lineCount, n) == Scan(0, lineCount)
  {
    ScanBackMeaning(chunk, lineCount, n);
    var s := ScanBack(chunk, lineCount, n);
    if s.from > 0 {
      NewlineIsCounted(chunk, s.from - 1);
      assert false;
    }
  }

  /**
   * With reads stopped at the previous position, the scan from `position`
   * collects the last n - lineCount lines of file[..position].
   */
  lemma {:induction false} CorrectedScanIsLastLines(file: seq<bv8>, n: int, position: nat, lineCount: int)
    returns (k: nat)
    requires position <= |file|
    requires lineCount < n
    ensures LastLinesStart(file[..position], n - lineCount, k)
    ensures ScanFrom(file, n, position, lineCount, true) == file[k..position]
    decreases position
  {
    var p := Previous(position);
    var chunk := file[p..position];
    var s := ScanBack(chunk, lineCount, n);
    if s.from > 0 || p == 0 {
      k := CorrectedScanStops(file, n, p, position, lineCount);
    } else {
      ShortScanCountsAll(chunk, lineCount, n);
      ScanBackMeaning(chunk, lineCount, n);
      var rest := n - s.lineCount;
      k := CorrectedScanIsLastLines(file, n, p, s.lineCount);
      LastLinesAcrossChunk(file, p, position, n - lineCount, CountNewlines(chunk), rest, k);
    }
  }

  /** The corrected scan that stops within the chunk below position, or at the start of the file. */
  lemma CorrectedScanStops(file: seq<bv8>, n: int, p: nat, position: nat, lineCount: int) returns (k: nat)
    requires p == Previous(position) && position <= |file|
    requires lineCount < n
    requires ScanBack(file[p..position], lineCount, n).from > 0 || p == 0
    ensures LastLinesStart(file[..position], n - lineCount, k)
    ensures ScanFrom(file, n, position, lineCount, true) == file[k..position]
  {
    var chunk := file[p..position];
    var s := ScanBack(chunk, lineCount, n);
    ScanBackMeaning(chunk, lineCount, n);
    var prefix := file[..position];
    assert prefix == file[..p] + chunk;
    if s.from > 0 {
      k := p + s.from;
      assert prefix[k..] == chunk[s.from..];
      assert prefix[k - 1] == chunk[s.from - 1];
    } else {
      k := 0;
      assert chunk == prefix;
    }
  }

  /**
   * When the chunk file[p..position] holds c newlines, fewer than the m lines
   * sought, the last m lines of file[..position] start where the last m - c
   * lines of file[..p] do.
   */
  lemma LastLinesAcrossChunk(file: seq<bv8>, p: nat, position: nat, m: int, c: nat, rest: int, k: nat)
    requires p <= position <= |file|
    requires c == CountNewlines(file[p..position]) && rest == m - c
    requires LastLinesStart(file[..p], rest, k)
    ensures LastLinesStart(file[..position], m, k)
    ensures file[k..p] + file[p..position] == file[k..position]
  {
    var prefix, chunk := file[..position], file[p..position];
    assert prefix == file[..p] + chunk;
    CountNewlinesSplit(prefix, p);
    assert prefix[..p] == file[..p];
    if k > 0 {
      assert prefix[k..] == file[k..p] + chunk;
      CountNewlinesAppend(file[k..p], chunk);
      assert file[..p][k..] == file[k..p];
      assert prefix[k - 1] == file[..p][k - 1];
    }
  }

  /**
   * When every reached position is a multiple of BUFFER_SIZE, or the only one
   * is the file length and it fits in one chunk, the code's reads are exactly
   * the corrected ones.
   */
  lemma {:induction false} AlignedReadsAgree(file: seq<bv8>, n: int, position: nat, lineCount: int)
    requires position <= |file|
    requires (position == |file| && position <= BUFFER_SIZE) || (position > 0 && position % BUFFER_SIZE == 0)
    ensures ScanFrom(file, n, position, lineCount, false) == ScanFrom(file, n, position, lineCount, true)
    decreases position
  {
    var p := Previous(position);
    assert ChunkAt(file, p) == file[p..position];
    var s := ScanBack(file[p..position], lineCount, n);
    if p != 0 && s.lineCount < n {
      AlignedReadsAgree(file, n, p, s.lineCount);
    }
  }

  /**
   * When the file length is not a multiple of BUFFER_SIZE, the positions
   * reached keep its remainder; as long as the bytes from that remainder up to
   * `position` still hold the n - lineCount newlines sought, the scan stops
   * before the clamped read, and the code's reads are exactly the corrected ones.
   */
  lemma {:induction false} UnalignedReadsAgree(file: seq<bv8>, n: int, position: nat, lineCount: int)
    requires |file| % BUFFER_SIZE != 0
    requires |file| % BUFFER_SIZE <= position <= |file|
    requires position % BUFFER_SIZE == |file| % BUFFER_SIZE
    requires lineCount < n
    requires CountNewlines(file[|file| % BUFFER_SIZE..position]) >= n - lineCount
    ensures ScanFrom(file, n, position, lineCount, false) == ScanFrom(file, n, position, lineCount, true)
    decreases position
  {
    var r := |file| % BUFFER_SIZE;
    EmptySliceHasNoNewlines(file, r, position);
    var p := position - BUFFER_SIZE;
    assert p % BUFFER_SIZE == r && r <= p && BUFFER_SIZE < position by {
      ModOneChunkBack(position, r);
    }
    var s := ScanBack(file[p..position], lineCount, n);
    if s.lineCount < n {
      ShortScanCountsAll(file[p..position], lineCount, n);
      CountNewlinesSlices(file, r, p, position);
      UnalignedReadsAgree(file, n, p, s.lineCount);
    }
    ReadsAgreeStep(file, n, p, position, lineCount);
  }

  /** A scan that does not reach n passes the whole chunk and counts all its newlines. */
  lemma ShortScanCountsAll(chunk: seq<bv8>, lineCount: int, n: int)
    ensures var s := ScanBack(chunk, lineCount, n);
            s.lineCount < n ==> s == Scan(0, lineCount + CountNewlines(chunk))
  {
    ScanBackMeaning(chunk, lineCount, n);
    assert chunk[0..] == chunk;
  }

  /** A full chunk read the same both ways: the two scans agree at position if they agree from p on. */
  lemma ReadsAgreeStep(file: seq<bv8>, n: int, p: nat, position: nat, lineCount: int)
    requires 0 < p && position == p + BUFFER_SIZE <= |file|
    requires var s := ScanBack(file[p..position], lineCount, n);
             s.lineCount < n ==> ScanFrom(file, n, p, s.lineCount, false) == ScanFrom(file, n, p, s.lineCount, true)
    ensures ScanFrom(file, n, position, lineCount, false) == ScanFrom(file, n, position, lineCount, true)
  {
    assert ChunkAt(file, p) == file[p..position];
  }

  /** A slice that holds a newline is not empty. */
  lemma EmptySliceHasNoNewlines(file: seq<bv8>, i: nat, j: nat)
    requires i <= j <= |file|
    requires CountNewlines(file[i..j]) > 0
    ensures i < j
  {
  }

  /** For n > 0, the corrected scan always yields the last n lines. */
  lemma TailOfCorrectedIsLastLines(file: seq<bv8>, n: int)
    requires n > 0
    ensures IsLastLines(file, n, TailOfCorrected(file, n))
  {
    var k := CorrectedScanIsLastLines(file, n, |file|, 0);
    assert file[..|file|] == file;
  }

  /** For n > 0 and a file of at most one chunk or a whole number of chunks, the code yields the last n lines. */
  lemma TailIsLastLinesWhenAligned(file: seq<bv8>, n: int)
    requires n > 0
    requires |file| <= BUFFER_SIZE || |file| % BUFFER_SIZE == 0
    ensures IsLastLines(file, n, TailOf(file, n))
  {
    AlignedReadsAgree(file, n, |file|, 0);
    TailOfCorrectedIsLastLines(file, n);
  }

  /**
   * For n > 0 and a file length that is not a multiple of BUFFER_SIZE, when
   * the bytes from length % BUFFER_SIZE on hold at least n newlines, the code
   * yields the last n lines.
   */
  lemma TailIsLastLinesWhenEnoughNewlines(file: seq<bv8>, n: int)
    requires n > 0 && |file| % BUFFER_SIZE != 0
    requires CountNewlines(file[|file| % BUFFER_SIZE..]) >= n
    ensures IsLastLines(file, n, TailOf(file, n))
  {
    assert file[|file| % BUFFER_SIZE..|file|] == file[|file| % BUFFER_SIZE..];
    UnalignedReadsAgree(file, n, |file|, 0);
    TailOfCorrectedIsLastLines(file, n);
  }

  /**
   * For n < 0 the do/while runs once: the result is what follows the last
   * newline of the last chunk, or that whole chunk.
   */
  lemma NegativeCountKeepsLastLineOfChunk(file: seq<bv8>, n: int)
    requires n < 0
    ensures IsLastLines(file[Previous(|file|)..], 1, TailOf(file, n))
  {
    var p := Previous(|file|);
    var chunk := ChunkAt(file, p);
    assert chunk == file[p..];
    ScanBackMeaning(chunk, 0, n);
    var s := ScanBack(chunk, 0, n);
    assert TailOf(file, n) == chunk[s.from..];
  }

  /** Newlines the scan writes from `position` on: none, or at most n - 1 - lineCount. */
  lemma {:induction false} ScanNewlineBound(file: seq<bv8>, n: int, position: nat, lineCount: int, corrected: bool)
    requires position <= |file|
    ensures var w := CountNewlines(ScanFrom(file, n, position, lineCount, corrected));
            w == 0 || lineCount + w <= n - 1
    decreases position
  {
    var p := Previous(position);
    var chunk := if corrected then file[p..position] else ChunkAt(file, p);
    var s := ScanBack(chunk, lineCount, n);
    ScanBackMeaning(chunk, lineCount, n);
    if p != 0 && s.lineCount < n {
      ScanNewlineBound(file, n, p, s.lineCount, corrected);
      CountNewlinesAppend(ScanFrom(file, n, p, s.lineCount, corrected), chunk[s.from..]);
    }
  }

  /** The n-th newline met is never written: the result holds at most n - 1 newlines (none when n <= 0). */
  lemma TailNewlineBound(file: seq<bv8>, n: int)
    ensures CountNewlines(TailOf(file, n)) <= if n > 0 then n - 1 else 0
  {
    if n != 0 {
      ScanNewlineBound(file, n, |file|, 0, false);
    }
  }

  // ---------------------------------------------------------------------------
  // The clamped last read scans bytes twice
  // ---------------------------------------------------------------------------

  /** Newline counts of adjacent slices add up. */
  lemma CountNewlinesSlices(file: seq<bv8>, i: nat, j: nat, k: nat)
    requires i <= j <= k <= |file|
    ensures CountNewlines(file[i..k]) == CountNewlines(file[i..j]) + CountNewlines(file[j..k])
  {
    assert file[i..k] == file[i..j] + file[j..k];
    CountNewlinesAppend(file[i..j], file[j..k]);
  }

  /**
   * A chunk holding fewer newlines than the n - lineCount still sought is
   * written whole, and each of its newlines is counted.
   */
  lemma FewNewlinesScan(chunk: seq<bv8>, lineCount: int, n: int)
    requires lineCount + CountNewlines(chunk) < n
    ensures ScanBack(chunk, lineCount, n) == Scan(0, lineCount + CountNewlines(chunk))
  {
    ScanBackMeaning(chunk, lineCount, n);
    var s := ScanBack(chunk, lineCount, n);
    if s.from > 0 {
      NewlinesBeforeStart(chunk, n - lineCount, 0, s.from);
      assert false;
    }
    assert chunk[0..] == chunk;
  }

  /**
   * As written, while the newlines after length % BUFFER_SIZE stay fewer than
   * n, every full chunk is written whole and the scan goes back to the
   * position length % BUFFER_SIZE, whose read is clamped to 0; it arrives
   * there with `counted` = lineCount plus the newlines passed.
   */
  lemma {:induction false} RescanFrom(file: seq<bv8>, n: int, r: nat, position: nat, lineCount: int, counted: int, k: nat)
    requires 0 < r < BUFFER_SIZE < |file|
    requires r <= position <= |file| && position % BUFFER_SIZE == r
    requires counted == lineCount + CountNewlines(file[r..position]) < n
    requires k == ScanBack(file[..BUFFER_SIZE], counted, n).from
    ensures k <= BUFFER_SIZE
    ensures ScanFrom(file, n, position, lineCount, false) == file[k..BUFFER_SIZE] + file[r..position]
    decreases position
  {
    if position == r {
      ClampedChunkHead(file, n, r, lineCount, counted, k);
    } else {
      var p := position - BUFFER_SIZE;
      assert p % BUFFER_SIZE == r && r <= p && BUFFER_SIZE < position by {
        ModOneChunkBack(position, r);
      }
      var next := lineCount + CountNewlines(file[p..position]);
      assert counted == next + CountNewlines(file[r..p]) by {
        CountNewlinesSlices(file, r, p, position);
      }
      RescanFrom(file, n, r, p, next, counted, k);
      RescanStep(file, n, r, p, position, lineCount, next, file[k..BUFFER_SIZE]);
    }
  }

  /** At position r the clamped read brings the first BUFFER_SIZE bytes and nothing of file[r..r] is left. */
  lemma ClampedChunkHead(file: seq<bv8>, n: int, r: nat, lineCount: int, counted: int, k: nat)
    requires 0 < r < BUFFER_SIZE < |file|
    requires counted == lineCount + CountNewlines(file[r..r]) < n
    requires k == ScanBack(file[..BUFFER_SIZE], counted, n).from
    ensures k <= BUFFER_SIZE
    ensures ScanFrom(file, n, r, lineCount, false) == file[k..BUFFER_SIZE] + file[r..r]
  {
    assert file[r..r] == [];
    var k' := ClampedChunkScan(file, n, r, lineCount);
  }

  /**
   * One full chunk more: if the scan from p rescans down to r, the scan from
   * position = p + BUFFER_SIZE does too, the chunk appended.
   */
  lemma RescanStep(file: seq<bv8>, n: int, r: nat, p: nat, position: nat, lineCount: int, next: int, head: seq<bv8>)
    requires 0 < r <= p && position == p + BUFFER_SIZE <= |file|
    requires next == lineCount + CountNewlines(file[p..position]) < n
    requires ScanFrom(file, n, p, next, false) == head + file[r..p]
    ensures ScanFrom(file, n, position, lineCount, false) == head + file[r..position]
  {
    FullChunkScan(file, n, p, position, lineCount, next);
    RescanJoin(file, head, r, p, position);
  }

  /** The bytes rescanned up to p, then the chunk from p, are the bytes rescanned up to position. */
  lemma RescanJoin(file: seq<bv8>, head: seq<bv8>, r: nat, p: nat, position: nat)
    requires r <= p <= position <= |file|
    ensures (head + file[r..p]) + file[p..position] == head + file[r..position]
  {
    assert file[r..p] + file[p..position] == file[r..position];
  }

  /** Stepping back one chunk from above the remainder keeps the remainder by BUFFER_SIZE. */
  lemma ModOneChunkBack(position: nat, r: nat)
    requires position % BUFFER_SIZE == r && 0 < r < position
    ensures (position - BUFFER_SIZE) % BUFFER_SIZE == r && r <= position - BUFFER_SIZE
    ensures position > BUFFER_SIZE
  {
  }

  /** A full chunk at p = position - BUFFER_SIZE with too few newlines is written whole and the scan goes on from p. */
  lemma FullChunkScan(file: seq<bv8>, n: int, p: nat, position: nat, lineCount: int, next: int)
    requires 0 < p && position == p + BUFFER_SIZE <= |file|
    requires next == lineCount + CountNewlines(file[p..position]) < n
    ensures ScanFrom(file, n, position, lineCount, false) == ScanFrom(file, n, p, next, false) + file[p..position]
  {
    assert Previous(position) == p;
    var chunk := ChunkAt(file, p);
    assert chunk == file[p..position];
    FewNewlinesScan(chunk, lineCount, n);
    assert ScanBack(chunk, lineCount, n) == Scan(0, next);
    assert chunk[0..] == chunk;
  }

  /** The clamped read at 0 brings the first BUFFER_SIZE bytes, whatever the position was: their last lines are written. */
  lemma ClampedChunkScan(file: seq<bv8>, n: int, position: nat, lineCount: int) returns (k: nat)
    requires 0 < position < BUFFER_SIZE < |file|
    requires lineCount < n
    ensures k == ScanBack(file[..BUFFER_SIZE], lineCount, n).from
    ensures LastLinesStart(file[..BUFFER_SIZE], n - lineCount, k)
    ensures ScanFrom(file, n, position, lineCount, false) == file[k..BUFFER_SIZE]
  {
    var chunk := ChunkAt(file, 0);
    assert chunk == file[..BUFFER_SIZE];
    ScanBackMeaning(chunk, lineCount, n);
    k := ScanBack(chunk, lineCount, n).from;
    assert chunk[k..] == file[k..BUFFER_SIZE];
  }

  /**
   * As written: for a file longer than BUFFER_SIZE whose length is not a
   * multiple of it, when the c newlines from length % BUFFER_SIZE on are fewer
   * than n, the result is the last n - c lines of the first BUFFER_SIZE bytes
   * followed by everything from length % BUFFER_SIZE on; the bytes from the
   * later of the two starts up to BUFFER_SIZE are written twice and their
   * newlines counted twice.
   */
  lemma RescannedTail(file: seq<bv8>, n: int) returns (k: nat)
    requires |file| > BUFFER_SIZE && |file| % BUFFER_SIZE != 0
    requires CountNewlines(file[|file| % BUFFER_SIZE..]) < n
    ensures LastLinesStart(file[..BUFFER_SIZE], n - CountNewlines(file[|file| % BUFFER_SIZE..]), k)
    ensures TailOf(file, n) == file[k..BUFFER_SIZE] + file[|file| % BUFFER_SIZE..]
  {
    var r := |file| % BUFFER_SIZE;
    var c := CountNewlines(file[r..]);
    assert file[r..|file|] == file[r..];
    k := ClampedChunkScan(file, n, r, c);
    RescanFrom(file, n, r, |file|, 0, c, k);
  }

  /**
   * As written: a file longer than BUFFER_SIZE whose length is not a multiple
   * of it, with no newline, comes back with its first BUFFER_SIZE bytes
   * followed by everything from length % BUFFER_SIZE on: bytes
   * [length % BUFFER_SIZE, BUFFER_SIZE) twice, and more bytes than the file has.
   */
  lemma RescanDuplicatesBytes(file: seq<bv8>, n: int)
    requires n > 0
    requires CountNewlines(file) == 0
    requires |file| > BUFFER_SIZE && |file| % BUFFER_SIZE != 0
    ensures TailOf(file, n) == file[..BUFFER_SIZE] + file[|file| % BUFFER_SIZE..]
    ensures |TailOf(file, n)| > |file|
    ensures !IsLastLines(file, n, TailOf(file, n))
  {
    var r := |file| % BUFFER_SIZE;
    CountNewlinesSplit(file, r);
    CountNewlinesSplit(file, BUFFER_SIZE);
    var k := RescannedTail(file, n);
    if k > 0 {
      NewlineIsCounted(file[..BUFFER_SIZE], k - 1);
      assert false;
    }
  }

  /** The file of the repository's test: "1\r\n2\r\n3\r\n4\r\n5\r\n6\r\n7". */
  const SAMPLE: seq<bv8> := [49, 13, 10, 50, 13, 10, 51, 13, 10, 52, 13, 10, 53, 13, 10, 54, 13, 10, 55]

  /**
   * Its last two lines are "6\r\n7": the one chunk is scanned back from
   * "7" over the newline at 17 (one line) to the newline at 14 (the second),
   * and the bytes after that one are the result.
   */
  lemma SampleLastTwoLines()
    ensures TailOf(SAMPLE, 2) == [54, 13, 10, 55]
    ensures IsLastLines(SAMPLE, 2, TailOf(SAMPLE, 2))
  {
    assert ChunkAt(SAMPLE, 0) == SAMPLE;
    assert SAMPLE[..18][..17] == SAMPLE[..17];
    assert SAMPLE[..17][..16] == SAMPLE[..16];
    assert SAMPLE[..16][..15] == SAMPLE[..15];
    assert ScanBack(SAMPLE[..15], 1, 2) == Scan(15, 2);
    assert ScanBack(SAMPLE[..16], 1, 2) == Scan(15, 2);
    assert ScanBack(SAMPLE[..17], 1, 2) == Scan(15, 2);
    assert ScanBack(SAMPLE[..18], 0, 2) == Scan(15, 2);
    assert ScanBack(SAMPLE, 0, 2) == Scan(15, 2);
    TailIsLastLinesWhenAligned(SAMPLE, 2);
  }
}
